=== FILE: README.md ===
# rustlygrad `Value` graph, modelled in Dafny

rustlygrad is a small scalar automatic-differentiation experiment in Rust. A `Value` holds
a forward value `data`, a gradient `grad`, an operation tag `_op`, and a `_prev` set of the
operand nodes it was computed from. The operators `+`, `-`, `*` and `tanh` build new nodes.
`_backward` pushes gradients from a node down to its operands. `trace` collects the nodes and
edges reachable from a root, for drawing. `sanitize` turns labels into Graphviz identifiers.

The model is built on an arena. Nodes live in a `seq<Value>` and refer to their operands by
index; an operand always comes before the node that uses it. `f64` becomes `real`.

`Value`'s equality and hash look only at `data`, so every `HashSet` in the program is keyed
by `data`. The model keeps this behaviour:

- A `_prev` is a sequence of indices with pairwise distinct `data`, in insertion order.
- `HashSet::insert` keeps the entry that is already stored under the same key.
- A binary operator's `_prev` is the left operand's `_prev`, with the left operand and then
  the right operand inserted. So it inherits the left operand's own operands.

Modules:

- `Values`: nodes, the arena, the `_prev` sets, and reachability through `_prev`. `Reach` is
  the reference definition that `trace` and `_backward` are measured against.
- `Build`: `Value::new`, `Add`, `Sub`, `Mul` and `Value::tanh`, as functions that append one
  node to the arena.
- `Activation`: tanh and its derivative. The exponential is a parameter with stated laws.
- `Backward`: `_backward`. This is each node's local rule, followed by the pass on each
  operand in `_prev` order. The outcome records a failed arity assertion instead of
  aborting.
- `Trace`: the breadth-first walk of `trace`, written once for any hash key. `trace` itself
  keys nodes by `data`; keying them by arena index gives the corrected walk.
- `Sanitize`: the four chained `str::replace` calls.

A few behaviours of the model follow the source's rules rather than correcting them:

- `'*'` and `'T'` overwrite the operand's gradient; only `'+'` accumulates. The model keeps
  one gradient per node (see "## Left out"). In a graph where an operand feeds two products,
  the first product's contribution is therefore lost (`Backward.DiamondOverwrites`). This
  describes the model's shared-gradient reading, not something the source text exhibits:
  there every operator stores its own copy of each operand.
- Operators inherit `_prev`, so a product whose left operand is not a leaf usually fails
  the arity assertion. `main` never calls `_backward`, but `_backward` from the tanh node
  that `main` builds would fail the `'T'` assertion at once (`Backward.MainGraphPanics`).
- Two operands with the same data are one key, so the second is never inserted into
  `_prev`. A sum of two different leaves that share data passes the gradient to the left
  one only, and `x + x` passes it once (`Backward.AddOfEqualLeaves`).

## Model

| member | source | states |
|---|---|---|
| Values.Insert | src/main.rs:66-68 | `HashSet::insert` under the `data` key: the key set grows by exactly the inserted node's data; a new key adds the inserted node itself, at the end; a key already present leaves the set as it was, keeping the stored entry; distinct keys stay distinct |
| Values.DistinctKeysCount | src/main.rs:25-37 | because equality and hash are by `data`, a `_prev` set holds exactly as many entries as it has distinct data values |
| Build.NewValue | src/main.rs:40-47 | `Value::new` adds a node with the given data, zero gradient, op `' '` and empty `_prev`; it reaches only itself; earlier nodes are unchanged |
| Build.Link | src/main.rs:66-68 | a binary result's `_prev` has distinct keys, contains the left operand's `_prev`, and its keys are the left operand's `_prev` keys plus both operands' data; the left operand is itself an entry when its key is not among its own operands', and the right operand is an entry when its key is new to both |
| Build.LinkCount | src/main.rs:96-98 | the number of entries in a binary result's `_prev` equals the number of distinct keys among the left operand's operands and the two operands |
| Build.Add | src/main.rs:63-76 | the sum node has data a + b, op `'+'` and the left operand's gradient; its `_prev` is `Link(g, a, b)`: the left operand's `_prev` with the left and then the right operand inserted; the arena stays well formed and earlier nodes are unchanged |
| Build.Sub | src/main.rs:78-91 | the same for the difference, with data a - b and op `'-'` |
| Build.Mul | src/main.rs:93-106 | the same for the product, with data a * b, op `'*'`, and gradient equal to the left operand's gradient times the right operand's data |
| Build.TanhNode | src/main.rs:49-60 | the tanh node's `_prev` is `Insert(g, g[a].prev, a)`, the operand's `_prev` with the operand inserted; its gradient is the operand's; its data is tanh of the operand's data, strictly between -1 and 1 (corrected value, see Findings) |
| Build.MulArity | src/main.rs:121-122 | a product has the two `_prev` entries the `'*'` rule demands exactly when its operands and its left operand's operands carry two distinct keys; a leaf left operand with different data always gives two |
| Build.TanhArity | src/main.rs:133-134 | a tanh node has the one entry the `'T'` rule demands exactly when the operand's own operands carry no key other than the operand's data; a leaf always gives one |
| Build.LinkOfLeaf | src/main.rs:66-68 | with a leaf left operand and distinct data, a binary result's `_prev` is exactly the two operands, in order |
| Build.LinkOfLeaves | src/main.rs:66-68 | over two leaves, a binary result's `_prev` is `[a, b]` when their data differ and `[a]` when it is equal, and holds leaves only |
| Build.LinkOfEqualLeaves | src/main.rs:66-68 | with a leaf left operand and a right operand of the same data, the second insert does nothing and `_prev` is the left operand alone |
| Activation.Tanh | src/main.rs:53 | the corrected tanh value (e^{2x} - 1)/(e^{2x} + 1) lies strictly between -1 and 1 |
| Activation.TanhDerivative | src/main.rs:139-141 | the corrected local derivative 1 - tanh(x)^2 lies in (0, 1] |
| Activation.TanhAtZero | src/main.rs:53 | given the exponential laws, tanh(0) = 0 and the derivative at 0 is 1 |
| Activation.TanhOdd | src/main.rs:53 | given the exponential laws, tanh(-x) = -tanh(x) |
| Activation.TanhAsWrittenIsConstant | src/main.rs:53 | the value `Value::tanh` computes as written equals e^{-2} whatever the input; the `'T'` derivative as written is the constant 1 - e^{-4} |
| Activation.TanhAsWrittenWrongAtZero | src/main.rs:141 | at input 0, the formulas as written differ from tanh and from its derivative |
| Backward.ArityOk | src/main.rs:121-134 | the arity the `'*'` and `'T'` assertions demand: two entries for a product, one for a tanh node; that `_backward` fails exactly where it does not hold is stated in `Backward.LocalStep` and `Backward.BackwardPanicsIff` |
| Backward.SetGrad | src/main.rs:130-131 | the model's reading of the `set_grad` call, which the source does not define: it overwrites one node's gradient and leaves every other node, and all links and data, unchanged |
| Backward.Accumulate | src/main.rs:117-119 | each listed operand's gradient grows by the node's gradient exactly once; no other node changes |
| Backward.LocalStep | src/main.rs:113-143 | the local rule fails exactly when the node's arity assertion fails, and then at that node; otherwise it changes only the node's operands' gradients |
| Backward.LocalRules | src/main.rs:115-143 | `'+'` adds the node's gradient to every operand; `'*'` overwrites each operand with the node's gradient times the other operand's data; `'T'` overwrites the operand with the node's gradient times the tanh derivative; `'-'` and leaves change nothing |
| Backward.PlusStep | src/main.rs:115-120 | the `'+'` rule: every operand's gradient grows by the node's gradient |
| Backward.TimesStep | src/main.rs:121-132 | the `'*'` rule with two operands: each operand gets the node's gradient times the other's data |
| Backward.TanhStep | src/main.rs:133-143 | the `'T'` rule with one operand: it gets the node's gradient times the tanh derivative |
| Backward.Backward | src/main.rs:110-161 | `_backward` changes no links or data; it leaves the gradients of the start node and of every node it cannot reach as they were; a failure is at a reachable node whose arity assertion fails |
| Backward.BackwardEach | src/main.rs:157-159 | the pass over each operand in turn leaves every node outside their reach unchanged; a failure is at a node they reach whose assertion fails |
| Backward.BackwardPanicsIff | src/main.rs:110-161 | `_backward` fails if and only if some node reachable from the start fails its arity assertion |
| Backward.LeafBackward | src/main.rs:157-159 | `_backward` on a leaf changes nothing |
| Backward.RootOverLeaves | src/main.rs:110-161 | for any node whose operands are all leaves, `_backward` is exactly the node's local rule: the same arena when the rule applies, the same failure at the node when its arity assertion fails |
| Backward.OverLeaves | src/main.rs:113-159 | over leaf operands, the effect of `_backward` on each operand by rule, and nothing changes outside the operands |
| Backward.PlusOverLeaves | src/main.rs:115-120 | over two leaves, a sum passes its gradient to both, and nothing else changes |
| Backward.PlusOverLeaf | src/main.rs:115-120 | over a single leaf, a sum passes its gradient to it, and nothing else changes |
| Backward.TimesOverLeaves | src/main.rs:121-132 | over two leaves, a product writes the product rule into both, and nothing else changes |
| Backward.TanhOverLeaf | src/main.rs:133-143 | over one leaf, a tanh node writes the chain rule into it, and nothing else changes |
| Backward.MinusOverLeaves | src/main.rs:113-155 | `'-'` has no arm in the match, so `_backward` over a difference whose operands are all leaves changes nothing |
| Backward.AddOfLeaves | src/main.rs:63-76 | built with `Add` from two leaves with different data and seeded with s: both leaves gain s, and nothing else changes |
| Backward.AddOfEqualLeaves | src/main.rs:63-76 | built with `Add` from two leaves with the same data and seeded with s: `_prev` holds only the left leaf, which gains s once; the right leaf, even a different node, and every other node are unchanged |
| Backward.MulOfLeaves | src/main.rs:93-106 | built with `Mul` from two leaves with different data and seeded with s: each leaf becomes s times the other's data (with equal data the product has one entry and fails the `'*'` assertion, `Backward.ProductArityPanic`) |
| Backward.TanhOfLeaf | src/main.rs:49-60 | built with `tanh` from a leaf and seeded with s: the leaf becomes s * (1 - tanh(x)^2) |
| Backward.SubOfLeaves | src/main.rs:78-91 | built with `Sub` from any two leaves, with the same data or not, and seeded: `_backward` changes nothing |
| Backward.ProductArityPanic | src/main.rs:122 | a product whose keys number other than two makes `_backward` fail at the product |
| Backward.TanhArityPanic | src/main.rs:134 | a tanh node whose operand has an operand with a different key makes `_backward` fail at it |
| Backward.MainGraphPanics | src/main.rs:226-233 | for the graph `main` builds, `_backward` from the tanh node fails its own `'T'` assertion at once |
| Backward.DiamondBuilt | src/main.rs:93-106 | x = 3, a = 2, b = 5, then x*a + x*b built with `Mul` and `Add`; the sum's `_prev` also holds `x` and `a` |
| Backward.DiamondOverwrites | src/main.rs:130-131 | under the model's one gradient per node, from that sum seeded with 1, `x` ends with 5, only the last product's contribution, not the total derivative 7; `a` and `b` get their true derivatives |
| Trace.InsertKeyed | src/main.rs:172-173 | keyed `HashSet::insert`: the keys grow by exactly the given key, and stored entries are kept |
| Trace.LinkEdges | src/main.rs:174-177 | the inner loop's edge insertions, one (child, node) edge per child; its properties are stated in `Trace.LinkEdgesCovers`, `Trace.LinkEdgesNew` and `Trace.LinkEdgesKeeps` |
| Trace.LinkEdgesCovers | src/main.rs:174-177 | every child of the visited node yields a (child, node) edge |
| Trace.LinkEdgesNew | src/main.rs:174-177 | every edge added while visiting a node joins one of its children to it |
| Trace.LinkEdgesKeeps | src/main.rs:174-177 | edges already present are kept with their entries |
| Trace.Visit | src/main.rs:172-177 | popping a node whose key is new stores its key, and exactly that key, and queues only arena nodes |
| Trace.WalkFrom | src/main.rs:171-179 | the `while let` loop from a given queue and sets; its properties are stated in `Trace.WalkFromGrows`, `Trace.WalkFacts` and `Trace.WalkComplete` |
| Trace.WalkFromGrows | src/main.rs:171-179 | the loop never removes a stored node or edge, stores only keys of arena nodes, and stores the key of every node it was given to visit |
| Trace.Walk | src/main.rs:164-182 | `trace`'s walk from the root with empty sets, over any key; its properties are stated in `Trace.WalkFacts` and `Trace.WalkComplete` |
| Trace.WalkFacts | src/main.rs:164-182 | for any key, the walk stores the root; every stored node is reachable and stored under its own key; every child of a stored node is keyed in the node set with an edge; every edge joins a stored node to one of its children |
| Trace.WalkComplete | src/main.rs:171-179 | when the key tells reachable nodes apart, the walk stores exactly the reachable nodes and exactly the (child, parent) links among them |
| Trace.Trace | src/main.rs:164-182 | `trace` with its loops: the root is stored; every stored node is reachable and stored under its data; every child of a stored node has its data stored and an edge; every edge joins a stored node to a child |
| Trace.VisitChildren | src/main.rs:174-177 | the inner loop queues the children in `_prev` order and inserts one edge per child |
| Trace.TraceFacts | src/main.rs:164-182 | the walk facts for the `data` key, stated in terms of `data` |
| Trace.TraceById | src/main.rs:164-182 | the corrected `trace`, keyed by node identity: its node set is exactly the reachable nodes and its edges exactly the links among them |
| Trace.TraceCompleteWhenDataDistinct | src/main.rs:172-173 | when no two reachable nodes share data, `trace` as written stores every reachable node |
| Trace.ShadowBuilt | src/main.rs:63-106 | the counterexample arena of the `trace` finding is what `Value::new`, `Add::add` and `Mul::mul` build from z = 1, y = 4, v = z + y, k = 2, u = k * v, w = 5, root = w + u |
| Trace.TraceMissesShadowedNode | src/main.rs:172-176 | on a graph where a leaf and a sum share data 5, a node reachable from the root is never stored by `trace` as written, but is stored by the corrected walk |
| Sanitize.ReplaceChar | src/main.rs:185-188 | `str::replace` with a character: a string without the character is unchanged, and the character does not survive a replacement that lacks it |
| Sanitize.Sanitize | src/main.rs:184-189 | a string with none of `* + - T` is unchanged, and no `T` survives |
| Sanitize.Spelling | src/main.rs:184-189 | each character's spelling contains none of the four; a character is kept as itself exactly when it is not one of them |
| Sanitize.ReplaceConcat | src/main.rs:185 | replacing distributes over concatenation |
| Sanitize.SanitizeConcat | src/main.rs:184-189 | `sanitize` distributes over concatenation |
| Sanitize.SanitizeChar | src/main.rs:184-189 | on one character, `sanitize` gives its spelling |
| Sanitize.SanitizeIsCharwise | src/main.rs:184-189 | the four chained replaces equal the character-by-character rewrite; earlier replacements introduce nothing a later one rewrites |
| Sanitize.SanitizeClean | src/main.rs:184-189 | the result contains none of the four operator characters, and `sanitize` is idempotent |

## Left out

- `draw_dot` and the Graphviz output, `println!` and `exec`: these are I/O. So are the float-to-string conversions that `draw_dot` feeds to `sanitize`. The model applies `sanitize` to any string.
- `f`, the `ndarray` demo at the start of `main`, and `main`'s printing: these are not part of the graph core. The graph `main` builds is modelled in `Backward.MainGraphPanics`.
- `f64` arithmetic becomes exact `real` arithmetic: no rounding, infinities or NaN.
- The hash uses `to_bits`, so `0.0` and `-0.0` hash differently while comparing equal, and NaN never equals itself. Keys here are exact reals, where neither case arises.
- `f64::exp` is transcendental. The exponential is a parameter `exp: real -> real` that is assumed positive. The lemmas that need more assume `exp(0) = 1` and `exp(x + y) = exp(x) * exp(y)`.
- `HashSet` iteration order is unspecified. The model fixes it to insertion order: `_prev` is iterated, and `_backward`'s recursion done, in the order the operators insert. When reachable nodes share data, which of them `trace` stores and expands depends on that order, so another order can give another node set. The counterexample of the `trace` finding does not depend on it: the leaf `w` is an operand of the root and is stored before the sum `v`, which is two links down, is ever dequeued.
- `Rc` sharing and mutation through `_prev`: `_backward` as written indexes a `HashSet` and assigns to a field behind `Rc`. The model takes the evident intent: one gradient per node, stored in the arena and seen by every node that links to it.
- Operand copies: every operator stores `Rc::new(self.clone())` and `Rc::new(other.clone())` (src/main.rs:52, 67-68, 82-83, 97-98), so each use of a value gets its own copy with its own gradient. The model instead links the operand node itself, and the shared per-node gradient is a modelling choice. Gradients that reach one node along several paths (`Backward.DiamondOverwrites`) describe the model, not the source's copies.
- `_backward` cannot compile as written. It calls `set_grad` and `data()` (src/main.rs:127-131, 137-140), and neither is defined in the file. It indexes a `HashSet`, and its `match` (src/main.rs:114-155) has no catch-all arm. `Backward.SetGrad` reads `set_grad` by its name, as an overwrite of the gradient, and `data()` as the node's `data`.
- `_backward` has no arm for `'-'` or `' '`. The model gives them no local rule: the gradient is not changed, and the pass still recurses into the operands. No derivative for subtraction is invented.
- The source never seeds the root gradient. The lemmas that compute concrete gradients seed it explicitly with `SetGrad`.
- Backward.LocalStep: the `'T'` rule uses the corrected derivative `Activation.TanhDerivative`, not the constant formula at line 141. The as-written formula is modelled separately in `Activation.TanhDerivativeAsWritten`.
- Build.TanhNode: the node's data is the corrected `Activation.Tanh`, not the constant at line 53. The as-written value is `Activation.TanhAsWritten`.
- Sanitize.Sanitize: its own contract states only the identity and `T` facts. The full character-by-character characterisation is in `Sanitize.SanitizeIsCharwise` and `Sanitize.SanitizeClean`.
- The overwriting `'*'` and `'T'` rules and the inherited `_prev` are kept, not corrected. Their consequences are stated in `Backward.DiamondOverwrites` and `Backward.MainGraphPanics`.
- A `_prev` keyed by `data` drops an operand whose data equals an entry already there. This is reproduced as written, not corrected: `Backward.AddOfEqualLeaves` states that the dropped operand receives no gradient.

## Findings

| source | as written | input that shows it | evidently intended | confidence | as-written member | corrected member |
|---|---|---|---|---|---|---|
| src/main.rs:53 | tanh value is exp(2x - 1) / exp(2x + 1), which equals e^{-2} for every x | x = 0 gives e^{-2} (about 0.135), not 0 | (exp(2x) - 1) / (exp(2x) + 1) | high; not executed | Activation.TanhAsWrittenIsConstant | Activation.Tanh |
| src/main.rs:141 | the `'T'` derivative is 1 - t*t with t the constant above, that is 1 - e^{-4} | at operand data 0 it gives 1 - e^{-4} instead of 1 | 1 - tanh(d)^2 | high; not executed | Activation.TanhAsWrittenWrongAtZero | Activation.TanhDerivative |
| src/main.rs:172-176 | `trace` deduplicates nodes by `data`, so a node equal in data to one already stored is never expanded | z = 1, y = 4, v = z + y, k = 2, u = k * v, w = 5, root = w + u: node z is reachable but never stored | collect every reachable node, keyed by identity | medium; not executed | Trace.TraceMissesShadowedNode | Trace.TraceById |

=== FILE: activation.dfy ===
/** The hyperbolic tangent used by the `'T'` node and by its local derivative.

    The source evaluates `f64::exp`, which is transcendental; here the exponential is a
    parameter `exp: real -> real`, and only the laws of the exponential that the proofs
    need are assumed of it, as preconditions. */
module Activation {

  /** What every function below needs of `exp`: it is positive, so no denominator is zero. */
  ghost predicate PositiveExp(exp: real -> real) {
    forall x :: exp(x) > 0.0
  }

  /** The exponential laws used by the lemmas: positive, `exp(0) = 1`, and
      `exp(x + y) = exp(x) * exp(y)`. */
  ghost predicate ExpLaws(exp: real -> real) {
    && PositiveExp(exp)
    && exp(0.0) == 1.0
    && forall x, y :: exp(x + y) == exp(x) * exp(y)
  }

  /** tanh(x) = (e^{2x} - 1) / (e^{2x} + 1), the formula `Value::tanh` evidently intends. */
  function Tanh(exp: real -> real, x: real): (t: real)
    requires PositiveExp(exp)
    ensures -1.0 < t < 1.0
  {
    var e := exp(2.0 * x);
    assert e > 0.0;
    (e - 1.0) / (e + 1.0)
  }

  /** The local derivative of tanh at `x`, 1 - tanh(x)^2, as the `'T'` rule evidently intends. */
  function TanhDerivative(exp: real -> real, x: real): (d: real)
    requires PositiveExp(exp)
    ensures 0.0 < d <= 1.0
  {
    var t := Tanh(exp, x);
    assert 0.0 <= t * t < 1.0 by {
      if t >= 0.0 { assert t * t <= t * 1.0; } else { assert t * t <= (-t) * 1.0; }
    }
    1.0 - t * t
  }

  lemma ExpAdd(exp: real -> real, x: real, y: real)
    requires ExpLaws(exp)
    ensures exp(x + y) == exp(x) * exp(y)
  {
  }

  /** tanh(0) = 0, and so the derivative at 0 is 1. */
  lemma TanhAtZero(exp: real -> real)
    requires ExpLaws(exp)
    ensures Tanh(exp, 0.0) == 0.0
    ensures TanhDerivative(exp, 0.0) == 1.0
  {
    assert 2.0 * 0.0 == 0.0;
  }

  /** tanh is odd: tanh(-x) = -tanh(x). */
  lemma TanhOdd(exp: real -> real, x: real)
    requires ExpLaws(exp)
    ensures Tanh(exp, -x) == -Tanh(exp, x)
  {
    ExpAdd(exp, 2.0 * x, 2.0 * -x);
    assert 2.0 * x + 2.0 * -x == 0.0;
    OddFromReciprocal(exp, x);
  }

  /** tanh(-x) = -tanh(x) needs only e^{2x} * e^{-2x} = 1. */
  lemma OddFromReciprocal(exp: real -> real, x: real)
    requires PositiveExp(exp) && exp(2.0 * x) * exp(2.0 * -x) == 1.0
    ensures Tanh(exp, -x) == -Tanh(exp, x)
  {
    var e := exp(2.0 * x);
    var f := exp(2.0 * -x);
    ReciprocalRatio(e, f);
    assert -((e - 1.0) / (e + 1.0)) == (1.0 - e) / (e + 1.0);
  }

  /** With f = 1/e, (f - 1)/(f + 1) = (1 - e)/(1 + e). */
  lemma ReciprocalRatio(e: real, f: real)
    requires e > 0.0 && f > 0.0 && e * f == 1.0
    ensures (f - 1.0) / (f + 1.0) == (1.0 - e) / (e + 1.0)
  {
    assert (f - 1.0) * (e + 1.0) == f - e;
    assert (1.0 - e) * (f + 1.0) == f - e;
    CrossDiv(f - 1.0, f + 1.0, 1.0 - e, e + 1.0);
  }

  lemma CrossDiv(a: real, b: real, c: real, d: real)
    requires b > 0.0 && d > 0.0 && a * d == c * b
    ensures a / b == c / d
  {
    assert a / b == (a * d) / (b * d);
    assert c / d == (c * b) / (d * b);
  }

  /** The value `Value::tanh` computes, as written: exp(2x - 1) / exp(2x + 1). */
  function TanhAsWritten(exp: real -> real, x: real): real
    requires PositiveExp(exp)
  {
    assert exp(2.0 * x + 1.0) > 0.0;
    exp(2.0 * x - 1.0) / exp(2.0 * x + 1.0)
  }

  /** The derivative the `'T'` rule computes, as written: 1 - t * t with t the formula above. */
  function TanhDerivativeAsWritten(exp: real -> real, x: real): real
    requires PositiveExp(exp)
  {
    var t := TanhAsWritten(exp, x);
    1.0 - t * t
  }

  /** As written, the tanh value does not depend on its input at all: it is e^{-2} = 1 / exp(2),
      and so the derivative the `'T'` rule writes is the constant 1 - e^{-4}. */
  lemma TanhAsWrittenIsConstant(exp: real -> real, x: real)
    requires ExpLaws(exp)
    ensures TanhAsWritten(exp, x) == 1.0 / exp(2.0)
    ensures TanhDerivativeAsWritten(exp, x) == 1.0 - (1.0 / exp(2.0)) * (1.0 / exp(2.0))
  {
    var a := exp(2.0 * x - 1.0);
    var e := exp(2.0);
    ExpAdd(exp, 2.0 * x - 1.0, 2.0);
    assert 2.0 * x - 1.0 + 2.0 == 2.0 * x + 1.0;
    assert exp(2.0 * x + 1.0) == a * e;
    DivCancel(a, e);
  }

  lemma DivCancel(a: real, e: real)
    requires a > 0.0 && e > 0.0
    ensures a / (a * e) == 1.0 / e
  {
    assert (1.0 / e) * (a * e) == a;
  }

  /** The input that shows the discrepancy: at 0 the written formula gives e^{-2}, not 0,
      and its derivative is not 1. */
  lemma TanhAsWrittenWrongAtZero(exp: real -> real)
    requires ExpLaws(exp)
    ensures TanhAsWritten(exp, 0.0) != Tanh(exp, 0.0)
    ensures TanhDerivativeAsWritten(exp, 0.0) != TanhDerivative(exp, 0.0)
  {
    TanhAsWrittenIsConstant(exp, 0.0);
    TanhAtZero(exp);
    var q := 1.0 / exp(2.0);
    assert q > 0.0;
    assert q * q > 0.0;
  }
}

=== FILE: backward.dfy ===
/** `Value::_backward`: the local gradient rule of a node, followed by the same pass on
    every one of its operands, in `_prev` order.

    Gradients live in the arena, so a write through one `_prev` entry is seen by every
    node that links to the same operand. The `'*'` and `'T'` rules begin with an arity
    assertion; a failed assertion ends the pass with `ArityPanic`. */
module Backward {
  import opened Values
  import Activation
  import Build

  /** A finished pass with the resulting arena, or the node whose arity assertion failed. */
  datatype Outcome = Done(arena: Arena) | ArityPanic(at: nat)

  /** The arity assertions: a product needs exactly two operands, a tanh node exactly one. */
  predicate ArityOk(v: Value) {
    match v.op
    case Times => |v.prev| == 2
    case Tanh => |v.prev| == 1
    case _ => true
  }

  /** The `set_grad` call, read by its name (the source does not define it): overwrite one
      node's gradient. */
  function SetGrad(g: Arena, j: nat, x: real): (r: Arena)
    requires j < |g|
    ensures SameShape(g, r) && r[j].grad == x
    ensures forall k :: 0 <= k < |g| && k != j ==> r[k] == g[k]
    ensures WellFormed(g) ==> WellFormed(r)
  {
    var r := g[j := g[j].(grad := x)];
    assert WellFormed(g) ==> WellFormed(r) by {
      if WellFormed(g) { SameShapeWellFormed(g, r); }
    }
    r
  }

  /** No index is listed twice. */
  predicate Distinct(s: seq<nat>) {
    forall p, q :: 0 <= p < q < |s| ==> s[p] != s[q]
  }

  /** `child.grad = child.grad + grad` for each child in turn: every listed node receives
      `x` once, and the others are left alone. */
  function Accumulate(g: Arena, cs: seq<nat>, x: real): (r: Arena)
    requires InArena(g, cs) && Distinct(cs)
    ensures SameShape(g, r)
    ensures forall j :: 0 <= j < |g| && j !in cs ==> r[j] == g[j]
    ensures forall p :: 0 <= p < |cs| ==> r[cs[p]].grad == g[cs[p]].grad + x
    decreases |cs|
  {
    if cs == [] then g
    else
      var r := Accumulate(SetGrad(g, cs[0], g[cs[0]].grad + x), cs[1..], x);
      assert cs[0] !in cs[1..] by {
        forall q | 0 <= q < |cs| - 1 ensures cs[1..][q] != cs[0] { assert cs[1..][q] == cs[q + 1]; }
      }
      assert forall p :: 1 <= p < |cs| ==> cs[p] == cs[1..][p - 1];
      r
  }

  /** Entries with distinct keys are distinct entries. */
  lemma DistinctKeysDistinct(g: Arena, s: seq<nat>)
    requires InArena(g, s) && DistinctKeys(g, s)
    ensures Distinct(s)
  {
    forall p, q | 0 <= p < q < |s| ensures s[p] != s[q] {
      assert !SameKey(g[s[p]], g[s[q]]);
    }
  }

  /** The gradient the `'*'` rule writes into one operand: the node's gradient times the
      other operand's data. */
  function ProductRule(grad: real, other: real): real {
    grad * other
  }

  /** The gradient the `'T'` rule writes into its operand: the node's gradient times the
      derivative of tanh at the operand's data. */
  function TanhRule(grad: real, d: real, exp: real -> real): real
    requires Activation.PositiveExp(exp)
  {
    grad * Activation.TanhDerivative(exp, d)
  }

  /** The local rule of node `i`, with the tanh derivative evaluated by the corrected
      formula. `'-'` and leaves have no rule. */
  function LocalStep(g: Arena, i: nat, exp: real -> real): (r: Outcome)
    requires WellFormed(g) && i < |g| && Activation.PositiveExp(exp)
    ensures r.ArityPanic? <==> !ArityOk(g[i])
    ensures r.ArityPanic? ==> r.at == i
    ensures r.Done? ==> SameShape(g, r.arena)
    ensures r.Done? ==> forall j :: 0 <= j < |g| && j !in g[i].prev ==> r.arena[j].grad == g[j].grad
  {
    var v := g[i];
    assert NodeOk(g, i);
    match v.op
    case Plus =>
      DistinctKeysDistinct(g, v.prev);
      Done(Accumulate(g, v.prev, v.grad))
    case Times =>
      if |v.prev| == 2 then
        var d0 := g[v.prev[0]].data;
        var d1 := g[v.prev[1]].data;
        Done(SetGrad(SetGrad(g, v.prev[0], ProductRule(v.grad, d1)), v.prev[1], ProductRule(v.grad, d0)))
      else ArityPanic(i)
    case Tanh =>
      if |v.prev| == 1 then
        Done(SetGrad(g, v.prev[0], TanhRule(v.grad, g[v.prev[0]].data, exp)))
      else ArityPanic(i)
    case Minus => Done(g)
    case Leaf => Done(g)
  }

  /** What each rule does to the operands of node `i`. */
  lemma LocalRules(g: Arena, i: nat, exp: real -> real)
    requires WellFormed(g) && i < |g| && Activation.PositiveExp(exp)
    ensures var v := g[i]; var r := LocalStep(g, i, exp);
      && InArena(g, v.prev)
      && (v.op == Plus ==> r.Done? && forall p :: 0 <= p < |v.prev| ==> r.arena[v.prev[p]].grad == g[v.prev[p]].grad + v.grad)
      && (v.op == Times && |v.prev| == 2 ==>
            && r.Done?
            && r.arena[v.prev[0]].grad == ProductRule(v.grad, g[v.prev[1]].data)
            && r.arena[v.prev[1]].grad == ProductRule(v.grad, g[v.prev[0]].data))
      && (v.op == Tanh && |v.prev| == 1 ==>
            r.Done? && r.arena[v.prev[0]].grad == TanhRule(v.grad, g[v.prev[0]].data, exp))
      && (v.op == Minus || v.op == Leaf ==> r == Done(g))
  {
    assert NodeOk(g, i);
    match g[i].op
    case Plus => PlusStep(g, i, exp);
    case Times => if |g[i].prev| == 2 { TimesStep(g, i, exp); }
    case Tanh => if |g[i].prev| == 1 { TanhStep(g, i, exp); }
    case _ =>
  }

  /** The `'+'` rule adds the node's gradient to every entry of its `_prev`. */
  lemma PlusStep(g: Arena, i: nat, exp: real -> real)
    requires WellFormed(g) && i < |g| && Activation.PositiveExp(exp) && g[i].op == Plus
    ensures InArena(g, g[i].prev)
    ensures var r := LocalStep(g, i, exp);
      r.Done? && forall p :: 0 <= p < |g[i].prev| ==> r.arena[g[i].prev[p]].grad == g[g[i].prev[p]].grad + g[i].grad
  {
    assert NodeOk(g, i);
    DistinctKeysDistinct(g, g[i].prev);
  }

  /** The `'*'` rule writes into each operand the node's gradient times the other's data. */
  lemma TimesStep(g: Arena, i: nat, exp: real -> real)
    requires WellFormed(g) && i < |g| && Activation.PositiveExp(exp) && g[i].op == Times && |g[i].prev| == 2
    ensures InArena(g, g[i].prev)
    ensures var v := g[i]; var r := LocalStep(g, i, exp);
      && r.Done?
      && r.arena[v.prev[0]].grad == ProductRule(v.grad, g[v.prev[1]].data)
      && r.arena[v.prev[1]].grad == ProductRule(v.grad, g[v.prev[0]].data)
  {
    assert NodeOk(g, i);
    assert !SameKey(g[g[i].prev[0]], g[g[i].prev[1]]);
  }

  /** The `'T'` rule writes into its operand the node's gradient times the tanh derivative. */
  lemma TanhStep(g: Arena, i: nat, exp: real -> real)
    requires WellFormed(g) && i < |g| && Activation.PositiveExp(exp) && g[i].op == Tanh && |g[i].prev| == 1
    ensures InArena(g, g[i].prev)
    ensures var v := g[i]; var r := LocalStep(g, i, exp);
      r.Done? && r.arena[v.prev[0]].grad == TanhRule(v.grad, g[v.prev[0]].data, exp)
  {
    assert NodeOk(g, i);
  }

  /** `_backward` on node `i`: its local rule, then the pass on each operand in order. */
  function Backward(g: Arena, i: nat, exp: real -> real): (r: Outcome)
    requires WellFormed(g) && i < |g| && Activation.PositiveExp(exp)
    ensures r.Done? ==> SameShape(g, r.arena)
    ensures r.Done? ==> forall j :: 0 <= j < |g| && (j == i || j !in Reach(g, i)) ==> r.arena[j].grad == g[j].grad
    ensures r.ArityPanic? ==> r.at in Reach(g, i) && !ArityOk(g[r.at])
    decreases i + 1, 0
  {
    assert NodeOk(g, i);
    match LocalStep(g, i, exp)
    case ArityPanic(at) => ArityPanic(at)
    case Done(h) =>
      ReachAllSameShape(g, h, g[i].prev, i);
      var r := BackwardEach(h, g[i].prev, i, exp);
      assert forall j :: 0 <= j < |g| && j in g[i].prev ==> j in Reach(g, i) by {
        forall j | 0 <= j < |g| && j in g[i].prev ensures j in Reach(g, i) {
          ReachStep(g, i, j);
          assert j in Reach(g, j);
        }
      }
      assert ReachAll(g, g[i].prev, i) <= Reach(g, i);
      r
  }

  /** The pass on each of `cs` in turn, stopping at the first failed assertion. */
  function BackwardEach(g: Arena, cs: seq<nat>, bound: nat, exp: real -> real): (r: Outcome)
    requires WellFormed(g) && bound <= |g| && Below(cs, bound) && Activation.PositiveExp(exp)
    ensures r.Done? ==> SameShape(g, r.arena)
    ensures r.Done? ==> forall j :: 0 <= j < |g| && j !in ReachAll(g, cs, bound) ==> r.arena[j].grad == g[j].grad
    ensures r.ArityPanic? ==> r.at in ReachAll(g, cs, bound) && !ArityOk(g[r.at])
    decreases bound, |cs|
  {
    if cs == [] then Done(g)
    else
      match Backward(g, cs[0], exp)
      case ArityPanic(at) => ArityPanic(at)
      case Done(h) =>
        ReachAllSameShape(g, h, cs[1..], bound);
        BackwardEach(h, cs[1..], bound, exp)
  }
  /** The pass finishes exactly when every node reachable from `i` passes its arity
      assertion; otherwise it stops at one that does not. */
  lemma BackwardPanicsIff(g: Arena, i: nat, exp: real -> real)
    requires WellFormed(g) && i < |g| && Activation.PositiveExp(exp)
    ensures Backward(g, i, exp).ArityPanic? <==> exists j :: j in Reach(g, i) && !ArityOk(g[j])
  {
    BackwardDoneAllOk(g, i, exp);
  }

  lemma {:induction false} BackwardDoneAllOk(g: Arena, i: nat, exp: real -> real)
    requires WellFormed(g) && i < |g| && Activation.PositiveExp(exp)
    ensures Backward(g, i, exp).Done? ==> forall j :: j in Reach(g, i) ==> ArityOk(g[j])
    decreases i + 1, 0
  {
    if Backward(g, i, exp).Done? {
      assert NodeOk(g, i);
      var h := LocalStep(g, i, exp).arena;
      ReachAllSameShape(g, h, g[i].prev, i);
      BackwardEachDoneAllOk(h, g[i].prev, i, exp);
      forall j | j in Reach(g, i) ensures ArityOk(g[j]) {
        if j != i {
          assert j in ReachAll(h, g[i].prev, i);
          assert ArityOk(h[j]);
        }
      }
    }
  }

  lemma {:induction false} BackwardEachDoneAllOk(g: Arena, cs: seq<nat>, bound: nat, exp: real -> real)
    requires WellFormed(g) && bound <= |g| && Below(cs, bound) && Activation.PositiveExp(exp)
    ensures BackwardEach(g, cs, bound, exp).Done? ==> forall j :: j in ReachAll(g, cs, bound) ==> ArityOk(g[j])
    decreases bound, |cs|
  {
    if cs != [] && BackwardEach(g, cs, bound, exp).Done? {
      var h := Backward(g, cs[0], exp).arena;
      BackwardDoneAllOk(g, cs[0], exp);
      ReachAllSameShape(g, h, cs[1..], bound);
      BackwardEachDoneAllOk(h, cs[1..], bound, exp);
      forall j | j in ReachAll(g, cs, bound) ensures ArityOk(g[j]) {
        if j !in Reach(g, cs[0]) {
          assert j in ReachAll(h, cs[1..], bound);
          assert ArityOk(h[j]);
        }
      }
    }
  }

  /** The pass on a leaf changes nothing. */
  lemma LeafBackward(g: Arena, a: nat, exp: real -> real)
    requires WellFormed(g) && a < |g| && Activation.PositiveExp(exp) && IsLeaf(g[a])
    ensures Backward(g, a, exp) == Done(g)
  {
    assert LocalStep(g, a, exp) == Done(g);
  }

  /** The pass over a node whose operands are all leaves is the node's local rule and
      nothing more: the same arena when the rule applies, the same failure when it fails. */
  lemma RootOverLeaves(h: Arena, n: nat, exp: real -> real)
    requires WellFormed(h) && n < |h| && Activation.PositiveExp(exp)
    requires forall p :: 0 <= p < |h[n].prev| ==> h[n].prev[p] < |h| && IsLeaf(h[h[n].prev[p]])
    ensures Backward(h, n, exp) == LocalStep(h, n, exp)
  {
    assert NodeOk(h, n);
    if LocalStep(h, n, exp).Done? {
      var h1 := LocalStep(h, n, exp).arena;
      SameShapeWellFormed(h, h1);
      LeavesBackward(h1, h[n].prev, n, exp);
    }
  }

  lemma {:induction false} LeavesBackward(g: Arena, cs: seq<nat>, bound: nat, exp: real -> real)
    requires WellFormed(g) && bound <= |g| && Below(cs, bound) && Activation.PositiveExp(exp)
    requires forall p :: 0 <= p < |cs| ==> IsLeaf(g[cs[p]])
    ensures BackwardEach(g, cs, bound, exp) == Done(g)
    decreases |cs|
  {
    if cs != [] {
      LeafBackward(g, cs[0], exp);
      LeavesBackward(g, cs[1..], bound, exp);
    }
  }

  /** The pass over a sum, product or tanh node whose operands are leaves. */
  lemma OverLeaves(h: Arena, n: nat, exp: real -> real)
    requires WellFormed(h) && n < |h| && Activation.PositiveExp(exp)
    requires forall p :: 0 <= p < |h[n].prev| ==> h[n].prev[p] < |h| && IsLeaf(h[h[n].prev[p]])
    ensures var v := h[n]; var r := Backward(h, n, exp);
      && InArena(h, v.prev)
      && (v.op == Plus ==> r.Done? && forall p :: 0 <= p < |v.prev| ==> r.arena[v.prev[p]].grad == h[v.prev[p]].grad + v.grad)
      && (v.op == Times && |v.prev| == 2 ==>
            && r.Done?
            && r.arena[v.prev[0]].grad == ProductRule(v.grad, h[v.prev[1]].data)
            && r.arena[v.prev[1]].grad == ProductRule(v.grad, h[v.prev[0]].data))
      && (v.op == Tanh && |v.prev| == 1 ==>
            r.Done? && r.arena[v.prev[0]].grad == TanhRule(v.grad, h[v.prev[0]].data, exp))
      && (v.op == Minus ==> r == Done(h))
      && (r.Done? ==> forall j :: 0 <= j < |h| && j !in v.prev ==> r.arena[j].grad == h[j].grad)
  {
    LocalRules(h, n, exp);
    if LocalStep(h, n, exp).Done? {
      RootOverLeaves(h, n, exp);
    }
  }

  /** A sum node `n` over leaves `a` and `b` with gradient `w`. */
  lemma PlusOverLeaves(h: Arena, n: nat, a: nat, b: nat, w: real, exp: real -> real)
    requires WellFormed(h) && n < |h| && a < |h| && b < |h| && Activation.PositiveExp(exp)
    requires h[n].op == Plus && h[n].prev == [a, b] && h[n].grad == w && IsLeaf(h[a]) && IsLeaf(h[b])
    ensures var r := Backward(h, n, exp);
      && r.Done?
      && r.arena[a].grad == h[a].grad + w && r.arena[b].grad == h[b].grad + w
      && forall j :: 0 <= j < |h| && j != a && j != b ==> r.arena[j].grad == h[j].grad
  {
    PlusPair(h, n, a, b, w, exp);
    RootOverLeaves(h, n, exp);
  }

  /** The `'+'` rule on a node whose `_prev` is `[a, b]`. */
  lemma PlusPair(h: Arena, n: nat, a: nat, b: nat, w: real, exp: real -> real)
    requires WellFormed(h) && n < |h| && a < |h| && b < |h| && Activation.PositiveExp(exp)
    requires h[n].op == Plus && h[n].prev == [a, b] && h[n].grad == w
    ensures var r := LocalStep(h, n, exp);
      && r.Done?
      && r.arena[a].grad == h[a].grad + w && r.arena[b].grad == h[b].grad + w
      && forall j :: 0 <= j < |h| && j != a && j != b ==> r.arena[j].grad == h[j].grad
  {
    PlusStep(h, n, exp);
    var r := LocalStep(h, n, exp).arena;
    assert r[a].grad == h[a].grad + w by { assert h[n].prev[0] == a; }
    assert r[b].grad == h[b].grad + w by { assert h[n].prev[1] == b; }
    assert forall j :: j !in [a, b] <==> j != a && j != b;
  }

  /** A sum node `n` whose `_prev` holds the single leaf `a`, with gradient `w`. */
  lemma PlusOverLeaf(h: Arena, n: nat, a: nat, w: real, exp: real -> real)
    requires WellFormed(h) && n < |h| && a < |h| && Activation.PositiveExp(exp)
    requires h[n].op == Plus && h[n].prev == [a] && h[n].grad == w && IsLeaf(h[a])
    ensures var r := Backward(h, n, exp);
      && r.Done?
      && r.arena[a].grad == h[a].grad + w
      && forall j :: 0 <= j < |h| && j != a ==> r.arena[j].grad == h[j].grad
  {
    PlusStep(h, n, exp);
    assert h[n].prev[0] == a;
    assert forall j :: j !in [a] <==> j != a;
    RootOverLeaves(h, n, exp);
  }

  /** A product node `n` over leaves `a` and `b` with data `da` and `db`, gradient `w`. */
  lemma TimesOverLeaves(h: Arena, n: nat, a: nat, b: nat, w: real, da: real, db: real, exp: real -> real)
    requires WellFormed(h) && n < |h| && a < |h| && b < |h| && Activation.PositiveExp(exp)
    requires h[n].op == Times && h[n].prev == [a, b] && h[n].grad == w && IsLeaf(h[a]) && IsLeaf(h[b])
    requires h[a].data == da && h[b].data == db
    ensures var r := Backward(h, n, exp);
      && r.Done?
      && r.arena[a].grad == ProductRule(w, db) && r.arena[b].grad == ProductRule(w, da)
      && forall j :: 0 <= j < |h| && j != a && j != b ==> r.arena[j].grad == h[j].grad
  {
    TimesPair(h, n, a, b, w, da, db, exp);
    RootOverLeaves(h, n, exp);
  }

  /** The `'*'` rule on a node whose `_prev` is `[a, b]`. */
  lemma TimesPair(h: Arena, n: nat, a: nat, b: nat, w: real, da: real, db: real, exp: real -> real)
    requires WellFormed(h) && n < |h| && a < |h| && b < |h| && Activation.PositiveExp(exp)
    requires h[n].op == Times && h[n].prev == [a, b] && h[n].grad == w
    requires h[a].data == da && h[b].data == db
    ensures var r := LocalStep(h, n, exp);
      && r.Done?
      && r.arena[a].grad == ProductRule(w, db) && r.arena[b].grad == ProductRule(w, da)
      && forall j :: 0 <= j < |h| && j != a && j != b ==> r.arena[j].grad == h[j].grad
  {
    TimesStep(h, n, exp);
    assert h[n].prev[0] == a && h[n].prev[1] == b;
    assert forall j :: j !in [a, b] <==> j != a && j != b;
  }

  /** A tanh node `n` over the leaf `a` with data `d`, gradient `w`. */
  lemma TanhOverLeaf(h: Arena, n: nat, a: nat, w: real, d: real, exp: real -> real)
    requires WellFormed(h) && n < |h| && a < |h| && Activation.PositiveExp(exp)
    requires h[n].op == Tanh && h[n].prev == [a] && h[n].grad == w && IsLeaf(h[a]) && h[a].data == d
    ensures var r := Backward(h, n, exp);
      && r.Done?
      && r.arena[a].grad == TanhRule(w, d, exp)
      && forall j :: 0 <= j < |h| && j != a ==> r.arena[j].grad == h[j].grad
  {
    TanhStep(h, n, exp);
    RootOverLeaves(h, n, exp);
    assert h[n].prev[0] == a;
  }

  /** A difference node over leaves: no rule, and the leaves have none either. */
  lemma MinusOverLeaves(h: Arena, n: nat, exp: real -> real)
    requires WellFormed(h) && n < |h| && Activation.PositiveExp(exp) && h[n].op == Minus
    requires forall p :: 0 <= p < |h[n].prev| ==> h[n].prev[p] < |h| && IsLeaf(h[h[n].prev[p]])
    ensures Backward(h, n, exp) == Done(h)
  {
    assert LocalStep(h, n, exp) == Done(h);
    RootOverLeaves(h, n, exp);
  }

  /** Seeding the root of an arena that extends `g` by one node leaves the nodes of `g`. */
  lemma SeededRoot(g: Arena, h: Arena, s: real)
    requires |h| == |g| + 1 && h[..|g|] == g
    ensures var r := SetGrad(h, |g|, s);
      && r[|g|].op == h[|g|].op && r[|g|].prev == h[|g|].prev && r[|g|].grad == s
      && forall j :: 0 <= j < |g| ==> r[j] == g[j]
  {
    assert forall j :: 0 <= j < |g| ==> h[j] == h[..|g|][j];
  }

  /** Gradient of a sum of two leaves, the root seeded with `s`: both operands gain `s`,
      and no other node changes. */
  lemma AddOfLeaves(g: Arena, a: nat, b: nat, s: real, exp: real -> real)
    requires WellFormed(g) && a < |g| && b < |g| && Activation.PositiveExp(exp)
    requires IsLeaf(g[a]) && IsLeaf(g[b]) && g[a].data != g[b].data
    ensures var h := Build.Add(g, a, b);
      var r := Backward(SetGrad(h, |g|, s), |g|, exp);
      && r.Done?
      && r.arena[a].grad == g[a].grad + s && r.arena[b].grad == g[b].grad + s
      && forall j :: 0 <= j < |g| && j != a && j != b ==> r.arena[j].grad == g[j].grad
  {
    Build.LinkOfLeaf(g, a, b);
    var h0 := Build.Add(g, a, b);
    SeededRoot(g, h0, s);
    PlusOverLeaves(SetGrad(h0, |g|, s), |g|, a, b, s, exp);
  }

  /** Gradient of a sum of two leaves with the same data, the root seeded with `s`: the
      right operand is equal to the left under `data` equality, so `_prev` never holds it.
      Only the left operand gains `s`; the right one, even when it is a different node,
      gains nothing, and `x + x` gains `s` once rather than twice. */
  lemma AddOfEqualLeaves(g: Arena, a: nat, b: nat, s: real, exp: real -> real)
    requires WellFormed(g) && a < |g| && b < |g| && Activation.PositiveExp(exp)
    requires IsLeaf(g[a]) && IsLeaf(g[b]) && g[a].data == g[b].data
    ensures Build.Add(g, a, b)[|g|].prev == [a]
    ensures var h := Build.Add(g, a, b);
      var r := Backward(SetGrad(h, |g|, s), |g|, exp);
      && r.Done?
      && r.arena[a].grad == g[a].grad + s
      && forall j :: 0 <= j < |g| && j != a ==> r.arena[j].grad == g[j].grad
  {
    Build.LinkOfEqualLeaves(g, a, b);
    var h0 := Build.Add(g, a, b);
    SeededRoot(g, h0, s);
    PlusOverLeaf(SetGrad(h0, |g|, s), |g|, a, s, exp);
  }

  /** Gradient of a product of two leaves, the root seeded with `s`: each operand's
      gradient is overwritten with `s` times the other operand's data. */
  lemma MulOfLeaves(g: Arena, a: nat, b: nat, s: real, exp: real -> real)
    requires WellFormed(g) && a < |g| && b < |g| && Activation.PositiveExp(exp)
    requires IsLeaf(g[a]) && IsLeaf(g[b]) && g[a].data != g[b].data
    ensures var h := Build.Mul(g, a, b);
      var r := Backward(SetGrad(h, |g|, s), |g|, exp);
      && r.Done?
      && r.arena[a].grad == ProductRule(s, g[b].data) && r.arena[b].grad == ProductRule(s, g[a].data)
      && forall j :: 0 <= j < |g| && j != a && j != b ==> r.arena[j].grad == g[j].grad
  {
    Build.LinkOfLeaf(g, a, b);
    var h0 := Build.Mul(g, a, b);
    SeededRoot(g, h0, s);
    TimesOverLeaves(SetGrad(h0, |g|, s), |g|, a, b, s, g[a].data, g[b].data, exp);
  }

  /** Gradient of tanh of a leaf, the root seeded with `s`: the operand's gradient is
      overwritten with `s * (1 - tanh(x)^2)`. */
  lemma TanhOfLeaf(g: Arena, a: nat, s: real, exp: real -> real)
    requires WellFormed(g) && a < |g| && Activation.PositiveExp(exp) && IsLeaf(g[a])
    ensures var h := Build.TanhNode(g, a, exp);
      var r := Backward(SetGrad(h, |g|, s), |g|, exp);
      && r.Done?
      && r.arena[a].grad == TanhRule(s, g[a].data, exp)
      && forall j :: 0 <= j < |g| && j != a ==> r.arena[j].grad == g[j].grad
  {
    assert Insert(g, [], a) == [a];
    var h0 := Build.TanhNode(g, a, exp);
    SeededRoot(g, h0, s);
    TanhOverLeaf(SetGrad(h0, |g|, s), |g|, a, s, g[a].data, exp);
  }

  /** The `'-'` tag has no rule: the pass over a difference of two leaves changes no
      gradient but the seeded root's. */
  lemma SubOfLeaves(g: Arena, a: nat, b: nat, s: real, exp: real -> real)
    requires WellFormed(g) && a < |g| && b < |g| && Activation.PositiveExp(exp)
    requires IsLeaf(g[a]) && IsLeaf(g[b])
    ensures var h := SetGrad(Build.Sub(g, a, b), |g|, s);
      Backward(h, |g|, exp) == Done(h)
  {
    Build.LinkOfLeaves(g, a, b);
    var h0 := Build.Sub(g, a, b);
    SeededRoot(g, h0, s);
    SeededLeaves(g, SetGrad(h0, |g|, s), Build.Link(g, a, b));
    MinusOverLeaves(SetGrad(h0, |g|, s), |g|, exp);
  }

  /** Operands that are leaves of `g` are still leaves of an arena that extends `g`. */
  lemma SeededLeaves(g: Arena, h: Arena, cs: seq<nat>)
    requires |h| == |g| + 1 && forall j :: 0 <= j < |g| ==> h[j] == g[j]
    requires InArena(g, cs) && forall p :: 0 <= p < |cs| ==> IsLeaf(g[cs[p]])
    ensures forall p :: 0 <= p < |cs| ==> cs[p] < |h| && IsLeaf(h[cs[p]])
  {
  }

  /** A product whose operands and left operand's operands carry other than two keys
      fails the `'*'` assertion at once; so does `_backward` on any node that reaches it. */
  lemma ProductArityPanic(g: Arena, a: nat, b: nat, exp: real -> real)
    requires WellFormed(g) && a < |g| && b < |g| && Activation.PositiveExp(exp)
    ensures InArena(g, g[a].prev)
    ensures |Keys(g, g[a].prev) + {g[a].data, g[b].data}| != 2 ==> Backward(Build.Mul(g, a, b), |g|, exp) == ArityPanic(|g|)
  {
    Build.MulArity(g, a, b);
  }

  /** Likewise a tanh node whose operand's operands carry a key other than the operand's data. */
  lemma TanhArityPanic(g: Arena, a: nat, exp: real -> real)
    requires WellFormed(g) && a < |g| && Activation.PositiveExp(exp)
    ensures InArena(g, g[a].prev)
    ensures !(Keys(g, g[a].prev) <= {g[a].data}) ==> Backward(Build.TanhNode(g, a, exp), |g|, exp) == ArityPanic(|g|)
  {
    Build.TanhArity(g, a, exp);
  }
  /** The graph `main` builds: a = 34, b = 23, c = 88, e = a + b, d = e - c, f = 2,
      l = d * f, then l.tanh(). Each operator's `_prev` inherits its left operand's, so the
      tanh node links `a` as well as `l`, and `_backward` from it fails the `'T'` assertion
      at once. */
  lemma MainGraphPanics(exp: real -> real)
    requires Activation.PositiveExp(exp)
    ensures var g3 := Build.NewValue(Build.NewValue(Build.NewValue([], 34.0), 23.0), 88.0);
      var g5 := Build.Sub(Build.Add(g3, 0, 1), 3, 2);
      var g7 := Build.Mul(Build.NewValue(g5, 2.0), 4, 5);
      Backward(Build.TanhNode(g7, 6, exp), 7, exp) == ArityPanic(7)
  {
    var g4 := MainSum();
    var g5 := MainDifference(g4);
    var g7 := MainProduct(g5);
    MainTanh(g7, exp);
  }

  /** tanh of l: its `_prev` holds `a` besides `l`, two keys where the rule needs one. */
  lemma MainTanh(g7: Arena, exp: real -> real)
    requires Activation.PositiveExp(exp)
    requires WellFormed(g7) && |g7| == 7 && g7[6].data == -62.0
    requires InArena(g7, g7[6].prev) && 34.0 in Keys(g7, g7[6].prev)
    ensures Backward(Build.TanhNode(g7, 6, exp), 7, exp) == ArityPanic(7)
  {
    TanhArityPanic(g7, 6, exp);
  }

  /** e = a + b over the three leaves: its `_prev` holds `a`. */
  lemma MainSum() returns (g4: Arena)
    ensures g4 == Build.Add(Build.NewValue(Build.NewValue(Build.NewValue([], 34.0), 23.0), 88.0), 0, 1)
    ensures WellFormed(g4) && |g4| == 4 && g4[2].data == 88.0 && g4[3].data == 57.0
    ensures InArena(g4, g4[3].prev) && 34.0 in Keys(g4, g4[3].prev)
  {
    var g3 := Build.NewValue(Build.NewValue(Build.NewValue([], 34.0), 23.0), 88.0);
    g4 := Build.Add(g3, 0, 1);
    KeysPrefix(g3, g4, g4[3].prev);
  }

  /** d = e - c inherits `e`'s `_prev`, so it still holds `a`. */
  lemma MainDifference(g4: Arena) returns (g5: Arena)
    requires WellFormed(g4) && |g4| == 4 && g4[2].data == 88.0 && g4[3].data == 57.0
    requires InArena(g4, g4[3].prev) && 34.0 in Keys(g4, g4[3].prev)
    ensures g5 == Build.Sub(g4, 3, 2)
    ensures WellFormed(g5) && |g5| == 5 && g5[4].data == -31.0
    ensures InArena(g5, g5[4].prev) && 34.0 in Keys(g5, g5[4].prev)
  {
    g5 := Build.Sub(g4, 3, 2);
    KeysPrefix(g4, g5, g5[4].prev);
  }

  /** l = d * f with a new leaf f = 2 inherits `d`'s `_prev`, so it still holds `a`. */
  lemma MainProduct(g5: Arena) returns (g7: Arena)
    requires WellFormed(g5) && |g5| == 5 && g5[4].data == -31.0
    requires InArena(g5, g5[4].prev) && 34.0 in Keys(g5, g5[4].prev)
    ensures g7 == Build.Mul(Build.NewValue(g5, 2.0), 4, 5)
    ensures WellFormed(g7) && |g7| == 7 && g7[6].data == -62.0
    ensures InArena(g7, g7[6].prev) && 34.0 in Keys(g7, g7[6].prev)
  {
    var g6 := Build.NewValue(g5, 2.0);
    assert g6[4] == g6[..5][4];
    KeysPrefix(g5, g6, g6[4].prev);
    g7 := Build.Mul(g6, 4, 5);
    KeysPrefix(g6, g7, g7[6].prev);
  }

  /** Keys of links into a prefix of the arena are the same in the longer arena. */
  lemma KeysPrefix(g: Arena, h: Arena, s: seq<nat>)
    requires |g| <= |h| && h[..|g|] == g && InArena(g, s)
    ensures InArena(h, s) && Keys(h, s) == Keys(g, s)
  {
    assert forall j :: 0 <= j < |g| ==> h[j] == h[..|g|][j];
  }

  /** x = 3, a = 2, b = 5, m1 = x * a, m2 = x * b, y = m1 + m2: the leaf `x` reaches the
      root along two paths. */
  function DiamondArena(): (g: Arena)
    ensures IsDiamond(g) && WellFormed(g)
  {
    var g := [ Value(3.0, Leaf, 0.0, []), Value(2.0, Leaf, 0.0, []), Value(5.0, Leaf, 0.0, [])
             , Value(6.0, Times, 0.0, [0, 1]), Value(15.0, Times, 0.0, [0, 2])
             , Value(21.0, Plus, 0.0, [0, 1, 3, 4]) ];
    assert IsDiamond(g);
    assert WellFormed(g) by { DiamondWellFormed(g); }
    g
  }

  /** Any arena with the diamond's shape is well formed. */
  lemma DiamondWellFormed(h: Arena)
    requires IsDiamond(h)
    ensures WellFormed(h)
  {
    assert NodeOk(h, 0) && NodeOk(h, 1) && NodeOk(h, 2);
    assert h[3].data == 6.0 && h[4].data == 15.0;
    assert NodeOk(h, 3) && NodeOk(h, 4) && NodeOk(h, 5);
  }

  /** The diamond is what `Value::new`, `Mul::mul` and `Add::add` build: the sum's `_prev`
      also holds `x` and `a`, the left product's operands. */
  lemma DiamondBuilt()
    ensures var g0 := Build.NewValue(Build.NewValue(Build.NewValue([], 3.0), 2.0), 5.0);
      Build.Add(Build.Mul(Build.Mul(g0, 0, 1), 0, 2), 3, 4) == DiamondArena()
  {
    var g0 := Build.NewValue(Build.NewValue(Build.NewValue([], 3.0), 2.0), 5.0);
    assert g0 == DiamondArena()[..3];
    var g1 := Build.Mul(g0, 0, 1);
    BuiltProduct(g0, 0, 1);
    var g2 := Build.Mul(g1, 0, 2);
    BuiltProduct(g1, 0, 2);
    BuiltSum(g2);
  }

  /** One product step of the diamond: a product of two leaves with different data. */
  lemma BuiltProduct(g: Arena, a: nat, b: nat)
    requires WellFormed(g) && 3 <= |g| < 5 && g == DiamondArena()[..|g|]
    requires a == 0 && b == |g| - 2
    ensures Build.Mul(g, a, b) == DiamondArena()[..|g| + 1]
  {
    var d := DiamondArena();
    assert g[a] == d[a] && g[b] == d[b];
    Build.LinkOfLeaf(g, a, b);
    var r := Build.Mul(g, a, b);
    assert r[|g|] == d[|g|];
    SnocEqual(r, d[..|g| + 1], |g|);
  }

  lemma BuiltSum(g: Arena)
    requires WellFormed(g) && g == DiamondArena()[..5]
    ensures Build.Add(g, 3, 4) == DiamondArena()
  {
    var d := DiamondArena();
    assert g[0] == d[0] && g[1] == d[1] && g[3] == d[3] && g[4] == d[4];
    SumLink(g);
    var r := Build.Add(g, 3, 4);
    assert r[5] == d[5];
    SnocEqual(r, d, 5);
  }

  lemma SumLink(g: Arena)
    requires WellFormed(g) && |g| == 5 && g[3].prev == [0, 1]
    requires g[0].data == 3.0 && g[1].data == 2.0 && g[3].data == 6.0 && g[4].data == 15.0
    ensures Build.Link(g, 3, 4) == [0, 1, 3, 4]
  {
    InsertThird(g);
    InsertFourth(g);
  }

  lemma InsertThird(g: Arena)
    requires |g| == 5 && g[0].data == 3.0 && g[1].data == 2.0 && g[3].data == 6.0
    ensures Insert(g, [0, 1], 3) == [0, 1, 3]
  {
    InsertNew(g, [0, 1], 3);
  }

  lemma InsertFourth(g: Arena)
    requires |g| == 5 && g[0].data == 3.0 && g[1].data == 2.0 && g[3].data == 6.0 && g[4].data == 15.0
    ensures Insert(g, [0, 1, 3], 4) == [0, 1, 3, 4]
  {
    InsertNew(g, [0, 1, 3], 4);
  }

  /** Inserting a node whose key is not yet present appends it. */
  lemma InsertNew(g: Arena, s: seq<nat>, i: nat)
    requires InArena(g, s) && i < |g|
    requires forall p :: 0 <= p < |s| ==> g[s[p]].data != g[i].data
    ensures Insert(g, s, i) == s + [i]
  {
    forall j | j in s ensures !SameKey(g[j], g[i]) {
      var p :| 0 <= p < |s| && s[p] == j;
    }
  }

  /** `'*'` overwrites, and the arena keeps one gradient per node (the source copies each
      operand into every operator instead). So after the pass from the seeded sum, `x`
      holds only the last product's contribution, 1 * b = 5, not the total derivative
      a + b = 7. The operands `a` and `b` get their derivatives right. */
  lemma DiamondOverwrites(exp: real -> real)
    requires Activation.PositiveExp(exp)
    ensures var g := DiamondArena();
      var r := Backward(SetGrad(g, 5, 1.0), 5, exp);
      && r.Done?
      && r.arena[0].grad == ProductRule(1.0, g[2].data) == 5.0
      && r.arena[0].grad != g[1].data + g[2].data
      && r.arena[1].grad == ProductRule(1.0, g[0].data)
      && r.arena[2].grad == ProductRule(1.0, g[0].data)
  {
    var g := DiamondArena();
    var h := SetGrad(g, 5, 1.0);
    assert IsDiamond(h) && h[5].grad == 1.0 && h[3].grad == 0.0 && h[4].grad == 0.0;
    DiamondPass(h, exp);
  }

  /** The shape of the diamond, whatever its gradients. */
  predicate IsDiamond(h: Arena) {
    && |h| == 6
    && h[0].data == 3.0 && h[1].data == 2.0 && h[2].data == 5.0 && h[3].data == 6.0 && h[4].data == 15.0
    && IsLeaf(h[0]) && IsLeaf(h[1]) && IsLeaf(h[2])
    && h[3].op == Times && h[3].prev == [0, 1]
    && h[4].op == Times && h[4].prev == [0, 2]
    && h[5].op == Plus && h[5].prev == [0, 1, 3, 4]
  }

  lemma DiamondShape(g: Arena, h: Arena)
    requires IsDiamond(g) && SameShape(g, h)
    ensures IsDiamond(h)
  {
  }

  lemma DiamondPass(h: Arena, exp: real -> real)
    requires Activation.PositiveExp(exp) && WellFormed(h) && IsDiamond(h) && h[5].grad == 1.0
    requires h[3].grad == 0.0 && h[4].grad == 0.0
    ensures var r := Backward(h, 5, exp);
      && r.Done?
      && r.arena[0].grad == ProductRule(1.0, 5.0) == 5.0
      && r.arena[1].grad == ProductRule(1.0, 3.0)
      && r.arena[2].grad == ProductRule(1.0, 3.0)
  {
    var h1 := DiamondSum(h, exp);
    DiamondProducts(h1, exp);
  }

  /** The sum's rule adds the seed to all four entries of its `_prev`; the pass on the
      leaves `x` and `a` changes nothing. */
  lemma DiamondSum(h: Arena, exp: real -> real) returns (h1: Arena)
    requires Activation.PositiveExp(exp) && WellFormed(h) && IsDiamond(h) && h[5].grad == 1.0
    requires h[3].grad == 0.0 && h[4].grad == 0.0
    ensures WellFormed(h1) && IsDiamond(h1)
    ensures h1[3].grad == 1.0 && h1[4].grad == 1.0
    ensures Backward(h, 5, exp) == BackwardEach(h1, [3, 4], 5, exp)
  {
    h1 := DiamondSumRule(h, exp);
    RootStep(h, 5, exp);
    DiamondSkipLeaves(h1, exp);
  }

  lemma DiamondSkipLeaves(h1: Arena, exp: real -> real)
    requires Activation.PositiveExp(exp) && WellFormed(h1) && IsDiamond(h1)
    ensures BackwardEach(h1, [0, 1, 3, 4], 5, exp) == BackwardEach(h1, [3, 4], 5, exp)
  {
    var cs := [0, 1, 3, 4];
    SkipLeaves(h1, cs, 5, exp);
    assert cs[2..] == [3, 4];
  }

  /** Two leaves at the head of the operand list are passed over. */
  lemma SkipLeaves(g: Arena, cs: seq<nat>, bound: nat, exp: real -> real)
    requires WellFormed(g) && bound <= |g| && Below(cs, bound) && Activation.PositiveExp(exp)
    requires |cs| >= 2 && IsLeaf(g[cs[0]]) && IsLeaf(g[cs[1]])
    ensures BackwardEach(g, cs, bound, exp) == BackwardEach(g, cs[2..], bound, exp)
  {
    LeafBackward(g, cs[0], exp);
    LeafBackward(g, cs[1], exp);
    assert cs[1..][0] == cs[1] && cs[1..][1..] == cs[2..];
  }

  /** The pass on a node is its local rule followed by the pass on its operands. */
  lemma RootStep(g: Arena, i: nat, exp: real -> real)
    requires WellFormed(g) && i < |g| && Activation.PositiveExp(exp) && LocalStep(g, i, exp).Done?
    ensures var h := LocalStep(g, i, exp).arena;
      && WellFormed(h) && InArena(g, g[i].prev) && Below(g[i].prev, i)
      && Backward(g, i, exp) == BackwardEach(h, g[i].prev, i, exp)
  {
    assert NodeOk(g, i);
    SameShapeWellFormed(g, LocalStep(g, i, exp).arena);
  }

  /** One step of the pass over a list of operands. */
  lemma EachStep(g: Arena, cs: seq<nat>, bound: nat, exp: real -> real)
    requires WellFormed(g) && bound <= |g| && Below(cs, bound) && Activation.PositiveExp(exp)
    requires cs != [] && Backward(g, cs[0], exp).Done?
    ensures var h := Backward(g, cs[0], exp).arena;
      WellFormed(h) && BackwardEach(g, cs, bound, exp) == BackwardEach(h, cs[1..], bound, exp)
  {
    SameShapeWellFormed(g, Backward(g, cs[0], exp).arena);
  }

  lemma DiamondSumRule(h: Arena, exp: real -> real) returns (h1: Arena)
    requires Activation.PositiveExp(exp) && WellFormed(h) && IsDiamond(h) && h[5].grad == 1.0
    requires h[3].grad == 0.0 && h[4].grad == 0.0
    ensures LocalStep(h, 5, exp) == Done(h1)
    ensures WellFormed(h1) && IsDiamond(h1)
    ensures h1[3].grad == 1.0 && h1[4].grad == 1.0
  {
    var cs := [0, 1, 3, 4];
    LocalRules(h, 5, exp);
    h1 := LocalStep(h, 5, exp).arena;
    assert h1[3].grad == 1.0 && h1[4].grad == 1.0 by {
      assert cs[2] == 3 && cs[3] == 4;
    }
    SameShapeWellFormed(h, h1);
    DiamondShape(h, h1);
  }

  /** The two products' rules, in `_prev` order: each overwrites `x`. */
  lemma DiamondProducts(h1: Arena, exp: real -> real)
    requires Activation.PositiveExp(exp) && WellFormed(h1) && IsDiamond(h1)
    requires h1[3].grad == 1.0 && h1[4].grad == 1.0
    ensures var r := BackwardEach(h1, [3, 4], 5, exp);
      && r.Done?
      && r.arena[0].grad == ProductRule(1.0, 5.0) == 5.0
      && r.arena[1].grad == ProductRule(1.0, 3.0)
      && r.arena[2].grad == ProductRule(1.0, 3.0)
  {
    var h2 := DiamondLeftProduct(h1, exp);
    DiamondRightProduct(h2, exp);
  }

  lemma DiamondRightProduct(h2: Arena, exp: real -> real)
    requires Activation.PositiveExp(exp) && WellFormed(h2) && IsDiamond(h2) && h2[4].grad == 1.0
    ensures var r := BackwardEach(h2, [4], 5, exp);
      && r.Done?
      && r.arena[0].grad == ProductRule(1.0, 5.0)
      && r.arena[1].grad == h2[1].grad
      && r.arena[2].grad == ProductRule(1.0, 3.0)
  {
    TimesOverLeaves(h2, 4, 0, 2, 1.0, 3.0, 5.0, exp);
    EachStep(h2, [4], 5, exp);
    assert [4][1..] == [];
  }

  lemma DiamondLeftProduct(h1: Arena, exp: real -> real) returns (h2: Arena)
    requires Activation.PositiveExp(exp) && WellFormed(h1) && IsDiamond(h1)
    requires h1[3].grad == 1.0 && h1[4].grad == 1.0
    ensures WellFormed(h2) && IsDiamond(h2) && h2[4].grad == 1.0
    ensures h2[1].grad == ProductRule(1.0, 3.0)
    ensures BackwardEach(h1, [3, 4], 5, exp) == BackwardEach(h2, [4], 5, exp)
  {
    TimesOverLeaves(h1, 3, 0, 1, 1.0, 3.0, 2.0, exp);
    h2 := Backward(h1, 3, exp).arena;
    EachStep(h1, [3, 4], 5, exp);
    assert [3, 4][1..] == [4];
    DiamondShape(h1, h2);
  }
}

=== FILE: build.dfy ===
/** Node construction: `Value::new`, the `Add`, `Sub` and `Mul` operators, and `Value::tanh`.

    Each operation appends one node to the arena and leaves every existing node as it was.
    A binary operator's `_prev` is the left operand's `_prev` with the left and then the
    right operand inserted, so it also holds the left operand's own operands. */
module Build {
  import opened Values
  import Activation

  /** Appending a node whose links are earlier nodes with distinct keys keeps the arena
      well formed and leaves the existing nodes alone. */
  function Append(g: Arena, v: Value): (r: Arena)
    requires WellFormed(g) && InArena(g, v.prev) && DistinctKeys(g, v.prev)
    ensures WellFormed(r) && |r| == |g| + 1 && r[..|g|] == g && r[|g|] == v
  {
    var r := g + [v];
    assert forall i :: 0 <= i < |g| ==> NodeOk(g, i) ==> NodeOk(r, i);
    assert NodeOk(r, |g|);
    r
  }

  /** `Value::new`: a leaf with zero gradient, op `' '` and no operands. */
  function NewValue(g: Arena, data: real): (r: Arena)
    requires WellFormed(g)
    ensures WellFormed(r) && |r| == |g| + 1 && r[..|g|] == g
    ensures r[|g|].data == data && r[|g|].grad == 0.0
    ensures r[|g|].op.Symbol() == ' ' && r[|g|].prev == []
    ensures Reach(r, |g|) == {|g|}
  {
    var r := Append(g, Value(data, Leaf, 0.0, []));
    assert ReachAll(r, [], |g|) == {};
    r
  }

  /** The `_prev` of a binary result: `self._prev` with `self` and then `other` inserted. */
  function Link(g: Arena, a: nat, b: nat): (p: seq<nat>)
    requires WellFormed(g) && a < |g| && b < |g|
    ensures InArena(g, p) && DistinctKeys(g, p)
    ensures InArena(g, g[a].prev) && Keys(g, p) == Keys(g, g[a].prev) + {g[a].data, g[b].data}
    ensures g[a].prev <= p
    ensures g[a].data !in Keys(g, g[a].prev) ==> a in p
    ensures g[b].data !in Keys(g, g[a].prev) + {g[a].data} ==> b in p
  {
    assert NodeOk(g, a);
    Insert(g, Insert(g, g[a].prev, a), b)
  }

  /** A binary result holds one entry per distinct key among the left operand's operands
      and the two operands. */
  lemma LinkCount(g: Arena, a: nat, b: nat)
    requires WellFormed(g) && a < |g| && b < |g|
    ensures InArena(g, g[a].prev) && |Link(g, a, b)| == |Keys(g, g[a].prev) + {g[a].data, g[b].data}|
  {
    assert NodeOk(g, a);
    DistinctKeysCount(g, Link(g, a, b));
  }

  /** `Add::add`. */
  function Add(g: Arena, a: nat, b: nat): (r: Arena)
    requires WellFormed(g) && a < |g| && b < |g|
    ensures WellFormed(r) && |r| == |g| + 1 && r[..|g|] == g
    ensures r[|g|].data == g[a].data + g[b].data
    ensures r[|g|].op.Symbol() == '+' && r[|g|].grad == g[a].grad
    ensures InArena(g, r[|g|].prev) && Keys(g, r[|g|].prev) == Keys(g, g[a].prev) + {g[a].data, g[b].data}
    ensures g[a].prev <= r[|g|].prev
    ensures r[|g|].prev == Link(g, a, b)
  {
    assert NodeOk(g, a);
    Append(g, Value(g[a].data + g[b].data, Plus, g[a].grad, Link(g, a, b)))
  }

  /** `Sub::sub`. */
  function Sub(g: Arena, a: nat, b: nat): (r: Arena)
    requires WellFormed(g) && a < |g| && b < |g|
    ensures WellFormed(r) && |r| == |g| + 1 && r[..|g|] == g
    ensures r[|g|].data == g[a].data - g[b].data
    ensures r[|g|].op.Symbol() == '-' && r[|g|].grad == g[a].grad
    ensures InArena(g, r[|g|].prev) && Keys(g, r[|g|].prev) == Keys(g, g[a].prev) + {g[a].data, g[b].data}
    ensures g[a].prev <= r[|g|].prev
    ensures r[|g|].prev == Link(g, a, b)
  {
    assert NodeOk(g, a);
    Append(g, Value(g[a].data - g[b].data, Minus, g[a].grad, Link(g, a, b)))
  }

  /** `Mul::mul`; the result's gradient is `self.grad * other.data`. */
  function Mul(g: Arena, a: nat, b: nat): (r: Arena)
    requires WellFormed(g) && a < |g| && b < |g|
    ensures WellFormed(r) && |r| == |g| + 1 && r[..|g|] == g
    ensures r[|g|].data == g[a].data * g[b].data
    ensures r[|g|].op.Symbol() == '*' && r[|g|].grad == g[a].grad * g[b].data
    ensures InArena(g, r[|g|].prev) && Keys(g, r[|g|].prev) == Keys(g, g[a].prev) + {g[a].data, g[b].data}
    ensures g[a].prev <= r[|g|].prev
    ensures r[|g|].prev == Link(g, a, b)
  {
    assert NodeOk(g, a);
    Append(g, Value(g[a].data * g[b].data, Times, g[a].grad * g[b].data, Link(g, a, b)))
  }

  /** `Value::tanh`: `_prev` is `self._prev` with `self` inserted. The value is the
      hyperbolic tangent of the operand's data. */
  function TanhNode(g: Arena, a: nat, exp: real -> real): (r: Arena)
    requires WellFormed(g) && a < |g| && Activation.PositiveExp(exp)
    ensures WellFormed(r) && |r| == |g| + 1 && r[..|g|] == g
    ensures r[|g|].data == Activation.Tanh(exp, g[a].data) && -1.0 < r[|g|].data < 1.0
    ensures r[|g|].op.Symbol() == 'T' && r[|g|].grad == g[a].grad
    ensures InArena(g, r[|g|].prev) && Keys(g, r[|g|].prev) == Keys(g, g[a].prev) + {g[a].data}
    ensures g[a].prev <= r[|g|].prev
    ensures r[|g|].prev == Insert(g, g[a].prev, a)
  {
    assert NodeOk(g, a);
    var p := Insert(g, g[a].prev, a);
    Append(g, Value(Activation.Tanh(exp, g[a].data), Tanh, g[a].grad, p))
  }

  /** The `'*'` rule needs exactly two operands. A product has two exactly when its left
      operand's operands and the two operands carry two distinct keys in all; in
      particular when the left operand is a leaf and the operands differ in data. */
  lemma MulArity(g: Arena, a: nat, b: nat)
    requires WellFormed(g) && a < |g| && b < |g|
    ensures InArena(g, g[a].prev)
    ensures |Mul(g, a, b)[|g|].prev| == 2 <==> |Keys(g, g[a].prev) + {g[a].data, g[b].data}| == 2
    ensures g[a].prev == [] && g[a].data != g[b].data ==> |Mul(g, a, b)[|g|].prev| == 2
    ensures g[a].data == g[b].data ==> |Mul(g, a, b)[|g|].prev| != 2 || g[a].prev != []
  {
    LinkCount(g, a, b);
    assert NodeOk(g, a);
    if g[a].prev == [] {
      assert Keys(g, g[a].prev) == {};
    }
  }

  /** The `'T'` rule needs exactly one operand, which holds exactly when the operand's own
      operands carry no key other than the operand's data; in particular for a leaf. */
  lemma TanhArity(g: Arena, a: nat, exp: real -> real)
    requires WellFormed(g) && a < |g| && Activation.PositiveExp(exp)
    ensures InArena(g, g[a].prev)
    ensures |TanhNode(g, a, exp)[|g|].prev| == 1 <==> Keys(g, g[a].prev) <= {g[a].data}
    ensures g[a].prev == [] ==> |TanhNode(g, a, exp)[|g|].prev| == 1
  {
    var r := TanhNode(g, a, exp);
    assert NodeOk(g, a);
    assert NodeOk(r, |g|);
    DistinctKeysCount(g, r[|g|].prev);
    var ks := Keys(g, g[a].prev) + {g[a].data};
    if Keys(g, g[a].prev) <= {g[a].data} {
      assert ks == {g[a].data};
    } else {
      var x :| x in Keys(g, g[a].prev) && x != g[a].data;
      TwoMembers(ks, x, g[a].data);
    }
  }

  /** A set with two different members has at least two elements. */
  lemma TwoMembers<T>(s: set<T>, x: T, y: T)
    requires x in s && y in s && x != y
    ensures |s| >= 2
  {
    assert s == {x, y} + (s - {x, y});
    assert |{x, y}| == 2;
  }

  /** With a leaf left operand, a binary result links exactly its two operands. */
  lemma LinkOfLeaf(g: Arena, a: nat, b: nat)
    requires WellFormed(g) && a < |g| && b < |g| && g[a].prev == [] && g[a].data != g[b].data
    ensures Link(g, a, b) == [a, b]
  {
    assert Insert(g, [], a) == [a];
    assert !exists j :: j in [a] && SameKey(g[j], g[b]);
  }

  /** With a leaf left operand, a right operand with the same data is not inserted: the
      binary result links the left operand alone. */
  lemma LinkOfEqualLeaves(g: Arena, a: nat, b: nat)
    requires WellFormed(g) && a < |g| && b < |g| && g[a].prev == [] && g[a].data == g[b].data
    ensures Link(g, a, b) == [a]
  {
    assert Insert(g, [], a) == [a];
    assert a in [a] && SameKey(g[a], g[b]);
  }

  /** Over two leaves, a binary result links leaves only: both of them, or the left alone. */
  lemma LinkOfLeaves(g: Arena, a: nat, b: nat)
    requires WellFormed(g) && a < |g| && b < |g| && IsLeaf(g[a]) && IsLeaf(g[b])
    ensures Link(g, a, b) == (if g[a].data == g[b].data then [a] else [a, b])
    ensures forall p :: 0 <= p < |Link(g, a, b)| ==> IsLeaf(g[Link(g, a, b)[p]])
  {
    if g[a].data != g[b].data {
      LinkOfLeaf(g, a, b);
    } else {
      LinkOfEqualLeaves(g, a, b);
    }
  }
}

=== FILE: sanitize.dfy ===
/** `sanitize`: the rewrite that turns a node label into a Graphviz identifier by
    spelling out the four operator characters. */
module Sanitize {

  /** `str::replace` with a character pattern: every occurrence of `c` becomes `rep`. */
  function ReplaceChar(s: string, c: char, rep: string): (r: string)
    ensures c !in s ==> r == s
    ensures c !in rep ==> c !in r
    decreases |s|
  {
    if s == [] then []
    else (if s[0] == c then rep else [s[0]]) + ReplaceChar(s[1..], c, rep)
  }

  /** The four replacements, applied in the order the source chains them. */
  function Sanitize(s: string): (r: string)
    ensures !Special(s) ==> r == s
    ensures 'T' !in r
  {
    ReplaceChar(ReplaceChar(ReplaceChar(ReplaceChar(s, '*', "_star_"), '+', "_plus_"), '-', "_minus_"), 'T', "_tanh_")
  }

  /** The string holds one of the four characters `sanitize` replaces. */
  predicate Special(s: string) {
    '*' in s || '+' in s || '-' in s || 'T' in s
  }

  /** How one character is written in an identifier. */
  function Spelling(c: char): (r: string)
    ensures !Special(r)
    ensures r == [c] <==> !Special([c])
  {
    match c
    case '*' => "_star_"
    case '+' => "_plus_"
    case '-' => "_minus_"
    case 'T' => "_tanh_"
    case _ => [c]
  }

  /** The reference rewrite: each character replaced by its spelling, in order. */
  function SanitizeEach(s: string): string
    decreases |s|
  {
    if s == [] then [] else Spelling(s[0]) + SanitizeEach(s[1..])
  }

  /** Replacing a character distributes over concatenation. */
  lemma {:induction false} ReplaceConcat(a: string, b: string, c: char, rep: string)
    ensures ReplaceChar(a + b, c, rep) == ReplaceChar(a, c, rep) + ReplaceChar(b, c, rep)
    decreases |a|
  {
    if a == [] {
      assert a + b == b;
    } else {
      assert a + b != [] && (a + b)[0] == a[0] && (a + b)[1..] == a[1..] + b;
      ReplaceConcat(a[1..], b, c, rep);
      var h := if a[0] == c then rep else [a[0]];
      assert ReplaceChar(a + b, c, rep) == h + ReplaceChar(a[1..] + b, c, rep);
      assert ReplaceChar(a, c, rep) == h + ReplaceChar(a[1..], c, rep);
    }
  }

  /** `sanitize` distributes over concatenation. */
  lemma SanitizeConcat(a: string, b: string)
    ensures Sanitize(a + b) == Sanitize(a) + Sanitize(b)
  {
    var s1a, s1b := ReplaceChar(a, '*', "_star_"), ReplaceChar(b, '*', "_star_");
    ReplaceConcat(a, b, '*', "_star_");
    var s2a, s2b := ReplaceChar(s1a, '+', "_plus_"), ReplaceChar(s1b, '+', "_plus_");
    ReplaceConcat(s1a, s1b, '+', "_plus_");
    var s3a, s3b := ReplaceChar(s2a, '-', "_minus_"), ReplaceChar(s2b, '-', "_minus_");
    ReplaceConcat(s2a, s2b, '-', "_minus_");
    ReplaceConcat(s3a, s3b, 'T', "_tanh_");
  }

  /** Replacing in a one-character string. */
  lemma ReplaceOne(x: char, c: char, rep: string)
    ensures ReplaceChar([x], c, rep) == if x == c then rep else [x]
  {
    assert [x][1..] == [];
  }

  /** On one character, `sanitize` writes its spelling. */
  lemma SanitizeChar(x: char)
    ensures Sanitize([x]) == Spelling(x)
  {
    ReplaceOne(x, '*', "_star_");
    if x == '*' {
      assert !Special("_star_");
    } else {
      ReplaceOne(x, '+', "_plus_");
      if x == '+' {
        assert !Special("_plus_");
      } else {
        ReplaceOne(x, '-', "_minus_");
        if x == '-' {
          assert !Special("_minus_");
        } else {
          ReplaceOne(x, 'T', "_tanh_");
        }
      }
    }
  }

  /** The chained replaces equal the character-by-character rewrite: every character
      other than the four is kept, in order, and each of the four becomes its spelling. */
  lemma {:induction false} SanitizeIsCharwise(s: string)
    ensures Sanitize(s) == SanitizeEach(s)
    decreases |s|
  {
    if s == [] {
      assert Sanitize(s) == [];
    } else {
      assert s == [s[0]] + s[1..];
      SanitizeConcat([s[0]], s[1..]);
      SanitizeChar(s[0]);
      SanitizeIsCharwise(s[1..]);
    }
  }

  /** The reference rewrite leaves none of the four characters. */
  lemma {:induction false} SanitizeEachClean(s: string)
    ensures !Special(SanitizeEach(s))
    decreases |s|
  {
    if s != [] {
      SanitizeEachClean(s[1..]);
      var r := SanitizeEach(s);
      assert r == Spelling(s[0]) + SanitizeEach(s[1..]);
      assert forall x :: x in r ==> x in Spelling(s[0]) || x in SanitizeEach(s[1..]);
    }
  }

  /** `sanitize` leaves none of the operator characters, so its result is a valid
      identifier fragment, and applying it again changes nothing. */
  lemma SanitizeClean(s: string)
    ensures !Special(Sanitize(s))
    ensures Sanitize(Sanitize(s)) == Sanitize(s)
  {
    SanitizeIsCharwise(s);
    SanitizeEachClean(s);
  }
}

=== FILE: trace.dfy ===
/** `trace`: a breadth-first walk over `_prev` links that collects a node set and a set
    of (child, parent) edges.

    Both sets are `HashSet`s, so membership is decided by a hash key, and
    `HashSet::insert` keeps the entry already stored under a key. The walk is written
    once over an arbitrary key function: `trace` itself keys nodes by `data`
    (`DataKey`); keying them by arena index (`IdKey`) gives the walk the keying was
    evidently meant to have. */
module Trace {
  import opened Values
  import Build

  /** The two sets `trace` returns, as maps from a hash key to the entry stored under it. */
  datatype Traced<K(==)> = Traced(nodes: map<K, nat>, edges: map<(K, K), (nat, nat)>)

  /** The key `PartialEq`/`Hash` give a node: its `data`. */
  function DataKey(j: nat, v: Value): real {
    v.data
  }

  /** Node identity: the arena index. */
  function IdKey(j: nat, v: Value): nat {
    j
  }

  function KeyOf<K(==)>(g: Arena, key: (nat, Value) -> K, j: nat): K
    requires j < |g|
  {
    key(j, g[j])
  }

  /** Every key a node of the arena has; the walk never stores any other. */
  function AllKeys<K(==)>(g: Arena, key: (nat, Value) -> K): set<K> {
    set j | 0 <= j < |g| :: KeyOf(g, key, j)
  }

  /** `HashSet::insert` on a keyed set: an entry already stored under `k` is kept. */
  function InsertKeyed<K, V>(m: map<K, V>, k: K, v: V): (r: map<K, V>)
    ensures r.Keys == m.Keys + {k}
    ensures forall x :: x in m ==> r[x] == m[x]
    ensures k !in m ==> r[k] == v
  {
    if k in m then m else m[k := v]
  }

  /** The edge insertions of `for child in &v._prev`: one edge (child, v) per child. */
  function LinkEdges<K(==)>(g: Arena, key: (nat, Value) -> K, v: nat, cs: seq<nat>, edges: map<(K, K), (nat, nat)>)
    : (r: map<(K, K), (nat, nat)>)
    requires v < |g| && InArena(g, cs)
    decreases |cs|
  {
    if cs == [] then edges
    else LinkEdges(g, key, v, cs[1..], InsertKeyed(edges, (KeyOf(g, key, cs[0]), KeyOf(g, key, v)), (cs[0], v)))
  }

  /** The edges already present are kept, with their entries. */
  lemma {:induction false} LinkEdgesKeeps<K>(g: Arena, key: (nat, Value) -> K, v: nat, cs: seq<nat>, edges: map<(K, K), (nat, nat)>)
    requires v < |g| && InArena(g, cs)
    ensures var r := LinkEdges(g, key, v, cs, edges);
      forall e :: e in edges ==> e in r && r[e] == edges[e]
    decreases |cs|
  {
    if cs != [] {
      var e1 := InsertKeyed(edges, (KeyOf(g, key, cs[0]), KeyOf(g, key, v)), (cs[0], v));
      LinkEdgesKeeps(g, key, v, cs[1..], e1);
    }
  }

  /** Every child yields an edge (child, v). */
  lemma {:induction false} LinkEdgesCovers<K>(g: Arena, key: (nat, Value) -> K, v: nat, cs: seq<nat>, edges: map<(K, K), (nat, nat)>)
    requires v < |g| && InArena(g, cs)
    ensures var r := LinkEdges(g, key, v, cs, edges);
      forall c :: c in cs ==> (KeyOf(g, key, c), KeyOf(g, key, v)) in r
    decreases |cs|
  {
    if cs != [] {
      var e0 := (KeyOf(g, key, cs[0]), KeyOf(g, key, v));
      var e1 := InsertKeyed(edges, e0, (cs[0], v));
      LinkEdgesCovers(g, key, v, cs[1..], e1);
      LinkEdgesKeeps(g, key, v, cs[1..], e1);
      assert forall c :: c in cs ==> c == cs[0] || c in cs[1..];
    }
  }

  /** Every new edge is (child, v) for one of the children, stored with that pair. */
  lemma {:induction false} LinkEdgesNew<K>(g: Arena, key: (nat, Value) -> K, v: nat, cs: seq<nat>, edges: map<(K, K), (nat, nat)>)
    requires v < |g| && InArena(g, cs)
    ensures var r := LinkEdges(g, key, v, cs, edges);
      forall e :: e in r && e !in edges ==>
        && e.1 == KeyOf(g, key, v) && r[e].1 == v
        && r[e].0 in cs && r[e].0 < |g| && KeyOf(g, key, r[e].0) == e.0
    decreases |cs|
  {
    if cs != [] {
      var e0 := (KeyOf(g, key, cs[0]), KeyOf(g, key, v));
      var e1 := InsertKeyed(edges, e0, (cs[0], v));
      var r := LinkEdges(g, key, v, cs, edges);
      assert r == LinkEdges(g, key, v, cs[1..], e1);
      forall e | e in r && e !in edges
        ensures && e.1 == KeyOf(g, key, v) && r[e].1 == v
                && r[e].0 in cs && r[e].0 < |g| && KeyOf(g, key, r[e].0) == e.0
      {
        if e in e1 {
          LinkEdgesKeeps(g, key, v, cs[1..], e1);
          assert e == e0 && r[e] == e1[e];
        } else {
          LinkEdgesNew(g, key, v, cs[1..], e1);
          assert r[e].0 in cs[1..];
        }
      }
    }
  }

  /** The `while let Some(v) = queue.pop_front()` loop, from a given queue and sets. */
  function WalkFrom<K(==)>(g: Arena, key: (nat, Value) -> K, queue: seq<nat>, t: Traced<K>): Traced<K>
    requires WellFormed(g) && InArena(g, queue) && t.nodes.Keys <= AllKeys(g, key)
    decreases AllKeys(g, key) - t.nodes.Keys, |queue|
  {
    if queue == [] then t
    else
      var v := queue[0];
      var k := KeyOf(g, key, v);
      if k in t.nodes then
        WalkFrom(g, key, queue[1..], t)
      else
        assert NodeOk(g, v);
        assert k in AllKeys(g, key);
        var (q, t') := Visit(g, key, queue, t);
        WalkFrom(g, key, q, t')
  }

  /** The walk from `root`, with empty sets and the queue holding `root`. */
  function Walk<K(==)>(g: Arena, key: (nat, Value) -> K, root: nat): Traced<K>
    requires WellFormed(g) && root < |g|
  {
    WalkFrom(g, key, [root], Traced(map[], map[]))
  }

  /** The loop only grows the two sets, stores only keys of arena nodes, and stores the
      key of every node it is given in its queue. */
  lemma {:induction false} WalkFromGrows<K>(g: Arena, key: (nat, Value) -> K, queue: seq<nat>, t: Traced<K>)
    requires WellFormed(g) && InArena(g, queue) && t.nodes.Keys <= AllKeys(g, key)
    ensures var r := WalkFrom(g, key, queue, t);
      && t.nodes.Keys <= r.nodes.Keys <= AllKeys(g, key) && t.edges.Keys <= r.edges.Keys
      && forall p :: 0 <= p < |queue| ==> KeyOf(g, key, queue[p]) in r.nodes
    decreases AllKeys(g, key) - t.nodes.Keys, |queue|
  {
    if queue != [] {
      var v := queue[0];
      var k := KeyOf(g, key, v);
      if k in t.nodes {
        WalkFromGrows(g, key, queue[1..], t);
        assert forall p :: 0 < p < |queue| ==> queue[p] == queue[1..][p - 1];
      } else {
        assert NodeOk(g, v);
        assert k in AllKeys(g, key);
        var (q, t') := Visit(g, key, queue, t);
        LinkEdgesKeeps(g, key, v, g[v].prev, t.edges);
        WalkFromGrows(g, key, q, t');
        assert forall p :: 0 < p < |queue| ==> queue[p] == q[p - 1];
      }
    }
  }

  /** Every stored node sits under its own key and is reachable from `root`. */
  ghost predicate StoredOk<K>(g: Arena, key: (nat, Value) -> K, root: nat, t: Traced<K>)
    requires WellFormed(g) && root < |g|
  {
    forall k :: k in t.nodes ==> t.nodes[k] < |g| && KeyOf(g, key, t.nodes[k]) == k && t.nodes[k] in Reach(g, root)
  }

  /** Every stored edge (child key, parent key) holds a stored parent and one of its children. */
  ghost predicate EdgesSound<K>(g: Arena, key: (nat, Value) -> K, root: nat, t: Traced<K>)
    requires WellFormed(g) && root < |g| && StoredOk(g, key, root, t)
  {
    forall e :: e in t.edges ==> EdgeOk(g, key, t, e)
  }

  /** The edge `e` is stored, with a stored parent and one of that parent's children. */
  ghost predicate EdgeOk<K>(g: Arena, key: (nat, Value) -> K, t: Traced<K>, e: (K, K)) {
    && e in t.edges && e.1 in t.nodes && t.edges[e].1 == t.nodes[e.1] && t.edges[e].1 < |g|
    && t.edges[e].0 in g[t.edges[e].1].prev && t.edges[e].0 < |g| && KeyOf(g, key, t.edges[e].0) == e.0
  }

  /** Every child of a stored node has its key stored or is still queued. */
  ghost predicate ChildrenSeen<K>(g: Arena, key: (nat, Value) -> K, root: nat, queue: seq<nat>, t: Traced<K>)
    requires WellFormed(g) && root < |g| && StoredOk(g, key, root, t)
  {
    forall k, c :: k in t.nodes && c in g[t.nodes[k]].prev ==> c < |g| && (KeyOf(g, key, c) in t.nodes || c in queue)
  }

  /** Every child of a stored node yields an edge. */
  ghost predicate EdgesComplete<K>(g: Arena, key: (nat, Value) -> K, root: nat, t: Traced<K>)
    requires WellFormed(g) && root < |g| && StoredOk(g, key, root, t)
  {
    forall k, c :: k in t.nodes && c in g[t.nodes[k]].prev ==> ChildEdge(g, key, t, k, c)
  }

  /** The child `c` of the node stored under `k` yields the edge (key of `c`, `k`). */
  ghost predicate ChildEdge<K>(g: Arena, key: (nat, Value) -> K, t: Traced<K>, k: K, c: nat) {
    c < |g| && (KeyOf(g, key, c), k) in t.edges
  }

  /** The queue holds reachable nodes, and `root` is queued first or stored. */
  ghost predicate QueueOk<K>(g: Arena, key: (nat, Value) -> K, root: nat, queue: seq<nat>, t: Traced<K>)
    requires WellFormed(g) && root < |g|
  {
    && InArena(g, queue)
    && (forall p :: 0 <= p < |queue| ==> queue[p] in Reach(g, root))
    && ((t.nodes == map[] && t.edges == map[] && queue == [root])
        || (KeyOf(g, key, root) in t.nodes && t.nodes[KeyOf(g, key, root)] == root))
  }

  /** The loop invariant of the walk. */
  ghost predicate WalkInv<K>(g: Arena, key: (nat, Value) -> K, root: nat, queue: seq<nat>, t: Traced<K>)
    requires WellFormed(g) && root < |g|
  {
    && QueueOk(g, key, root, queue, t)
    && StoredOk(g, key, root, t)
    && ChildrenSeen(g, key, root, queue, t)
    && EdgesComplete(g, key, root, t)
    && EdgesSound(g, key, root, t)
  }

  /** Popping a node whose key is already stored keeps the invariant. */
  lemma SkipKeepsInv<K>(g: Arena, key: (nat, Value) -> K, root: nat, queue: seq<nat>, t: Traced<K>)
    requires WellFormed(g) && root < |g| && queue != []
    requires WalkInv(g, key, root, queue, t) && KeyOf(g, key, queue[0]) in t.nodes
    ensures WalkInv(g, key, root, queue[1..], t)
  {
    var v := queue[0];
    var q := queue[1..];
    forall k2, c | k2 in t.nodes && c in g[t.nodes[k2]].prev
      ensures c < |g| && (KeyOf(g, key, c) in t.nodes || c in q)
    {
      if KeyOf(g, key, c) !in t.nodes {
        assert c in queue;
        assert c == v || c in q by { assert forall x :: x in queue <==> x == v || x in q; }
      }
    }
  }

  /** The state after popping `queue[0]` when its key is new: the node is stored, its
      children are queued and its edges recorded. */
  function Visit<K(==)>(g: Arena, key: (nat, Value) -> K, queue: seq<nat>, t: Traced<K>): (r: (seq<nat>, Traced<K>))
    requires WellFormed(g) && InArena(g, queue) && queue != []
    ensures InArena(g, r.0) && r.1.nodes.Keys == t.nodes.Keys + {KeyOf(g, key, queue[0])}
  {
    var v := queue[0];
    assert NodeOk(g, v);
    (queue[1..] + g[v].prev, Traced(t.nodes[KeyOf(g, key, v) := v], LinkEdges(g, key, v, g[v].prev, t.edges)))
  }

  lemma VisitQueueStored<K>(g: Arena, key: (nat, Value) -> K, root: nat, queue: seq<nat>, t: Traced<K>)
    requires WellFormed(g) && root < |g| && queue != []
    requires QueueOk(g, key, root, queue, t) && StoredOk(g, key, root, t) && KeyOf(g, key, queue[0]) !in t.nodes
    ensures var (q, t') := Visit(g, key, queue, t);
      QueueOk(g, key, root, q, t') && StoredOk(g, key, root, t')
  {
    VisitQueue(g, key, root, queue, t);
    VisitStored(g, key, root, queue, t);
  }

  lemma VisitQueue<K>(g: Arena, key: (nat, Value) -> K, root: nat, queue: seq<nat>, t: Traced<K>)
    requires WellFormed(g) && root < |g| && queue != []
    requires QueueOk(g, key, root, queue, t) && KeyOf(g, key, queue[0]) !in t.nodes
    ensures QueueOk(g, key, root, Visit(g, key, queue, t).0, Visit(g, key, queue, t).1)
  {
    var v := queue[0];
    assert v in Reach(g, root);
    assert NodeOk(g, v);
    var cs := g[v].prev;
    var q := Visit(g, key, queue, t).0;
    assert q == queue[1..] + cs;
    forall p | 0 <= p < |q| ensures q[p] < |g| && q[p] in Reach(g, root) {
      if p >= |queue| - 1 {
        assert q[p] == cs[p - (|queue| - 1)];
        ReachClosed(g, root, v, q[p]);
      } else {
        assert q[p] == queue[p + 1];
      }
    }
    assert (t.nodes == map[] && queue == [root]) ==> v == root;
  }

  lemma VisitStored<K>(g: Arena, key: (nat, Value) -> K, root: nat, queue: seq<nat>, t: Traced<K>)
    requires WellFormed(g) && root < |g| && queue != []
    requires QueueOk(g, key, root, queue, t) && StoredOk(g, key, root, t) && KeyOf(g, key, queue[0]) !in t.nodes
    ensures StoredOk(g, key, root, Visit(g, key, queue, t).1)
  {
    var v := queue[0];
    assert v in Reach(g, root);
    var t' := Visit(g, key, queue, t).1;
    assert t'.nodes == t.nodes[KeyOf(g, key, v) := v];
  }

  lemma VisitChildrenSeen<K>(g: Arena, key: (nat, Value) -> K, root: nat, queue: seq<nat>, t: Traced<K>)
    requires WellFormed(g) && root < |g| && InArena(g, queue) && queue != []
    requires StoredOk(g, key, root, t) && ChildrenSeen(g, key, root, queue, t)
    requires KeyOf(g, key, queue[0]) !in t.nodes && StoredOk(g, key, root, Visit(g, key, queue, t).1)
    ensures var (q, t') := Visit(g, key, queue, t);
      ChildrenSeen(g, key, root, q, t')
  {
    var v := queue[0];
    var k := KeyOf(g, key, v);
    assert NodeOk(g, v);
    var cs := g[v].prev;
    var q := Visit(g, key, queue, t).0;
    var t' := Visit(g, key, queue, t).1;
    assert q == queue[1..] + cs && t'.nodes == t.nodes[k := v];
    forall k2, c | k2 in t'.nodes && c in g[t'.nodes[k2]].prev
      ensures c < |g| && (KeyOf(g, key, c) in t'.nodes || c in q)
    {
      if k2 == k {
        assert c in q by { assert forall x :: x in cs ==> x in q; }
      } else {
        assert k2 in t.nodes && t'.nodes[k2] == t.nodes[k2];
        if KeyOf(g, key, c) !in t.nodes && c != v {
          assert c in queue;
          assert c in queue[1..] by { assert forall x :: x in queue <==> x == v || x in queue[1..]; }
          assert c in q by { assert forall x :: x in queue[1..] ==> x in q; }
        }
      }
    }
  }

  lemma VisitEdgesComplete<K>(g: Arena, key: (nat, Value) -> K, root: nat, queue: seq<nat>, t: Traced<K>)
    requires WellFormed(g) && root < |g| && InArena(g, queue) && queue != []
    requires StoredOk(g, key, root, t) && EdgesComplete(g, key, root, t)
    requires KeyOf(g, key, queue[0]) !in t.nodes && StoredOk(g, key, root, Visit(g, key, queue, t).1)
    ensures EdgesComplete(g, key, root, Visit(g, key, queue, t).1)
  {
    var v := queue[0];
    assert NodeOk(g, v);
    var t' := Visit(g, key, queue, t).1;
    assert t' == Traced(t.nodes[KeyOf(g, key, v) := v], LinkEdges(g, key, v, g[v].prev, t.edges));
    forall k, c | k in t'.nodes && c in g[t'.nodes[k]].prev ensures ChildEdge(g, key, t', k, c) {
      CompleteEdge(g, key, root, t, v, t', k, c);
    }
  }

  /** One child of a node stored after visiting `v` yields its edge. */
  lemma CompleteEdge<K>(g: Arena, key: (nat, Value) -> K, root: nat, t: Traced<K>, v: nat, t': Traced<K>, k: K, c: nat)
    requires WellFormed(g) && root < |g| && v < |g| && InArena(g, g[v].prev)
    requires StoredOk(g, key, root, t) && EdgesComplete(g, key, root, t) && KeyOf(g, key, v) !in t.nodes
    requires t' == Traced(t.nodes[KeyOf(g, key, v) := v], LinkEdges(g, key, v, g[v].prev, t.edges))
    requires k in t'.nodes && t'.nodes[k] < |g| && c in g[t'.nodes[k]].prev
    ensures ChildEdge(g, key, t', k, c)
  {
    if k == KeyOf(g, key, v) {
      LinkEdgesCovers(g, key, v, g[v].prev, t.edges);
    } else {
      assert t'.nodes[k] == t.nodes[k];
      assert ChildEdge(g, key, t, k, c);
      LinkEdgesKeeps(g, key, v, g[v].prev, t.edges);
    }
  }

  lemma VisitEdgesSound<K>(g: Arena, key: (nat, Value) -> K, root: nat, queue: seq<nat>, t: Traced<K>)
    requires WellFormed(g) && root < |g| && InArena(g, queue) && queue != []
    requires StoredOk(g, key, root, t) && EdgesSound(g, key, root, t)
    requires KeyOf(g, key, queue[0]) !in t.nodes && StoredOk(g, key, root, Visit(g, key, queue, t).1)
    ensures EdgesSound(g, key, root, Visit(g, key, queue, t).1)
  {
    var v := queue[0];
    assert NodeOk(g, v);
    var t' := Visit(g, key, queue, t).1;
    assert t' == Traced(t.nodes[KeyOf(g, key, v) := v], LinkEdges(g, key, v, g[v].prev, t.edges));
    forall e | e in t'.edges ensures EdgeOk(g, key, t', e) {
      SoundEdge(g, key, root, t, v, t', e);
    }
  }

  /** One edge of the state after visiting `v` joins a stored node to one of its children. */
  lemma SoundEdge<K>(g: Arena, key: (nat, Value) -> K, root: nat, t: Traced<K>, v: nat, t': Traced<K>, e: (K, K))
    requires WellFormed(g) && root < |g| && v < |g| && InArena(g, g[v].prev)
    requires StoredOk(g, key, root, t) && EdgesSound(g, key, root, t) && KeyOf(g, key, v) !in t.nodes
    requires t' == Traced(t.nodes[KeyOf(g, key, v) := v], LinkEdges(g, key, v, g[v].prev, t.edges))
    requires e in t'.edges
    ensures EdgeOk(g, key, t', e)
  {
    if e in t.edges {
      OldEdge(g, key, root, t, v, t', e);
    } else {
      NewEdge(g, key, v, t, t', e);
    }
  }

  lemma OldEdge<K>(g: Arena, key: (nat, Value) -> K, root: nat, t: Traced<K>, v: nat, t': Traced<K>, e: (K, K))
    requires WellFormed(g) && root < |g| && v < |g| && InArena(g, g[v].prev)
    requires StoredOk(g, key, root, t) && EdgesSound(g, key, root, t) && KeyOf(g, key, v) !in t.nodes
    requires t' == Traced(t.nodes[KeyOf(g, key, v) := v], LinkEdges(g, key, v, g[v].prev, t.edges))
    requires e in t.edges
    ensures EdgeOk(g, key, t', e)
  {
    LinkEdgesKeeps(g, key, v, g[v].prev, t.edges);
    assert EdgeOk(g, key, t, e);
  }

  lemma NewEdge<K>(g: Arena, key: (nat, Value) -> K, v: nat, t: Traced<K>, t': Traced<K>, e: (K, K))
    requires v < |g| && InArena(g, g[v].prev)
    requires t' == Traced(t.nodes[KeyOf(g, key, v) := v], LinkEdges(g, key, v, g[v].prev, t.edges))
    requires e in t'.edges && e !in t.edges
    ensures EdgeOk(g, key, t', e)
  {
    LinkEdgesNew(g, key, v, g[v].prev, t.edges);
  }

  lemma {:induction false} WalkFromKeepsInv<K>(g: Arena, key: (nat, Value) -> K, root: nat, queue: seq<nat>, t: Traced<K>)
    requires WellFormed(g) && root < |g| && InArena(g, queue) && t.nodes.Keys <= AllKeys(g, key)
    requires WalkInv(g, key, root, queue, t)
    ensures WalkInv(g, key, root, [], WalkFrom(g, key, queue, t))
    decreases AllKeys(g, key) - t.nodes.Keys, |queue|
  {
    if queue != [] {
      var v := queue[0];
      var k := KeyOf(g, key, v);
      if k in t.nodes {
        SkipKeepsInv(g, key, root, queue, t);
        WalkFromKeepsInv(g, key, root, queue[1..], t);
      } else {
        VisitQueueStored(g, key, root, queue, t);
        VisitChildrenSeen(g, key, root, queue, t);
        VisitEdgesComplete(g, key, root, queue, t);
        VisitEdgesSound(g, key, root, queue, t);
        var (q, t') := Visit(g, key, queue, t);
        assert k in AllKeys(g, key);
        assert t'.nodes.Keys == t.nodes.Keys + {k};
        assert WalkFrom(g, key, queue, t) == WalkFrom(g, key, q, t');
        WalkFromKeepsInv(g, key, root, q, t');
      }
    }
  }

  /** What the walk from `root` returns, for any key function:
      `root` is stored under its key; every stored node is reachable and stored under its
      own key; every child of a stored node has its key stored and yields an edge; and
      every edge joins a stored node to one of its children. */
  lemma WalkFacts<K>(g: Arena, key: (nat, Value) -> K, root: nat)
    requires WellFormed(g) && root < |g|
    ensures var r := Walk(g, key, root);
      && KeyOf(g, key, root) in r.nodes && r.nodes[KeyOf(g, key, root)] == root
      && StoredOk(g, key, root, r)
      && ChildrenSeen(g, key, root, [], r)
      && EdgesComplete(g, key, root, r)
      && EdgesSound(g, key, root, r)
  {
    var t: Traced<K> := Traced(map[], map[]);
    assert QueueOk(g, key, root, [root], t);
    assert StoredOk(g, key, root, t);
    assert ChildrenSeen(g, key, root, [root], t);
    assert EdgesComplete(g, key, root, t);
    assert EdgesSound(g, key, root, t);
    WalkFromKeepsInv(g, key, root, [root], t);
  }

  /** When the key tells the reachable nodes apart, the walk finds every one of them and
      every edge between them, each exactly once. */
  lemma WalkComplete<K>(g: Arena, key: (nat, Value) -> K, root: nat)
    requires WellFormed(g) && root < |g|
    requires forall i, j :: i in Reach(g, root) && j in Reach(g, root) && KeyOf(g, key, i) == KeyOf(g, key, j) ==> i == j
    ensures var r := Walk(g, key, root);
      && (forall j :: 0 <= j < |g| ==> (j in Reach(g, root) <==> KeyOf(g, key, j) in r.nodes && r.nodes[KeyOf(g, key, j)] == j))
      && (forall k :: k in r.nodes ==> r.nodes[k] in Reach(g, root))
      && (forall c, v :: 0 <= c < |g| && 0 <= v < |g| ==>
            ((KeyOf(g, key, c), KeyOf(g, key, v)) in r.edges && r.edges[(KeyOf(g, key, c), KeyOf(g, key, v))] == (c, v)
             <==> v in Reach(g, root) && c in g[v].prev))
  {
    var r := Walk(g, key, root);
    WalkFacts(g, key, root);
    var s := r.nodes.Values;
    forall j, c | j in s && j < |g| && c in g[j].prev ensures c in s {
      var k :| k in r.nodes && r.nodes[k] == j;
      var kc := KeyOf(g, key, c);
      ReachClosed(g, root, j, c);
      assert r.nodes[kc] == c;
    }
    ReachLeast(g, root, s);
    forall j | 0 <= j < |g| && j in Reach(g, root)
      ensures KeyOf(g, key, j) in r.nodes && r.nodes[KeyOf(g, key, j)] == j
    {
      var k :| k in r.nodes && r.nodes[k] == j;
    }
    forall c, v | 0 <= c < |g| && 0 <= v < |g| && v in Reach(g, root) && c in g[v].prev
      ensures (KeyOf(g, key, c), KeyOf(g, key, v)) in r.edges && r.edges[(KeyOf(g, key, c), KeyOf(g, key, v))] == (c, v)
    {
      var e := (KeyOf(g, key, c), KeyOf(g, key, v));
      assert r.nodes[KeyOf(g, key, v)] == v;
      ReachClosed(g, root, v, c);
      ReachClosed(g, root, v, r.edges[e].0);
    }
  }

  /** `trace` as written, with its `while let` loop: the node set and the edge set,
      keyed by `data`. */
  method Trace(g: Arena, root: nat) returns (nodes: map<real, nat>, edges: map<(real, real), (nat, nat)>)
    requires WellFormed(g) && root < |g|
    ensures Traced(nodes, edges) == Walk(g, DataKey, root)
    ensures g[root].data in nodes && nodes[g[root].data] == root
    ensures forall x :: x in nodes ==> nodes[x] < |g| && nodes[x] in Reach(g, root) && g[nodes[x]].data == x
    ensures forall x, c :: x in nodes && c in g[nodes[x]].prev ==> c < |g| && g[c].data in nodes && (g[c].data, x) in edges
    ensures forall e :: e in edges ==>
              && e.1 in nodes && edges[e].1 == nodes[e.1] && edges[e].1 < |g|
              && edges[e].0 in g[edges[e].1].prev && edges[e].0 < |g| && g[edges[e].0].data == e.0
  {
    nodes := map[];
    edges := map[];
    var queue := [root];
    while queue != []
      invariant InArena(g, queue) && nodes.Keys <= AllKeys(g, DataKey)
      invariant WalkFrom(g, DataKey, queue, Traced(nodes, edges)) == Walk(g, DataKey, root)
      decreases AllKeys(g, DataKey) - nodes.Keys, |queue|
    {
      ghost var queue0 := queue;
      ghost var t0 := Traced(nodes, edges);
      var v := queue[0];
      queue := queue[1..];
      assert KeyOf(g, DataKey, v) == g[v].data;
      if g[v].data !in nodes {
        assert NodeOk(g, v);
        assert KeyOf(g, DataKey, v) in AllKeys(g, DataKey);
        nodes := nodes[g[v].data := v];
        queue, edges := VisitChildren(g, v, queue, edges);
        assert (queue, Traced(nodes, edges)) == Visit(g, DataKey, queue0, t0);
      }
    }
    TraceFacts(g, root);
  }

  /** The `for child in &v._prev` loop of `trace`: each child is queued and yields the
      edge (child, v), inserted only when no edge with the same pair of keys is present. */
  method VisitChildren(g: Arena, v: nat, queue: seq<nat>, edges: map<(real, real), (nat, nat)>)
    returns (queue': seq<nat>, edges': map<(real, real), (nat, nat)>)
    requires WellFormed(g) && v < |g|
    ensures InArena(g, g[v].prev) && queue' == queue + g[v].prev
    ensures edges' == LinkEdges(g, DataKey, v, g[v].prev, edges)
  {
    assert NodeOk(g, v);
    var children := g[v].prev;
    queue', edges' := queue, edges;
    for k := 0 to |children|
      invariant queue' == queue + children[..k]
      invariant LinkEdges(g, DataKey, v, children[k..], edges') == LinkEdges(g, DataKey, v, children, edges)
    {
      var c := children[k];
      assert KeyOf(g, DataKey, c) == g[c].data;
      edges' := InsertKeyed(edges', (g[c].data, g[v].data), (c, v));
      queue' := queue' + [c];
      assert children[k..][1..] == children[k + 1..];
    }
    assert children[..|children|] == children;
  }

  /** `WalkFacts` for the `data` key, stated in terms of `data`. */
  lemma TraceFacts(g: Arena, root: nat)
    requires WellFormed(g) && root < |g|
    ensures var r := Walk(g, DataKey, root);
      && g[root].data in r.nodes && r.nodes[g[root].data] == root
      && (forall x :: x in r.nodes ==> r.nodes[x] < |g| && r.nodes[x] in Reach(g, root) && g[r.nodes[x]].data == x)
      && (forall x, c :: x in r.nodes && c in g[r.nodes[x]].prev ==> c < |g| && g[c].data in r.nodes && (g[c].data, x) in r.edges)
      && (forall e :: e in r.edges ==>
            && e.1 in r.nodes && r.edges[e].1 == r.nodes[e.1] && r.edges[e].1 < |g|
            && r.edges[e].0 in g[r.edges[e].1].prev && r.edges[e].0 < |g| && g[r.edges[e].0].data == e.0)
  {
    var r := Walk(g, DataKey, root);
    WalkFacts(g, DataKey, root);
    assert KeyOf(g, DataKey, root) == g[root].data;
    DataNodes(g, root, r);
    DataEdges(g, root, r);
  }

  lemma DataNodes(g: Arena, root: nat, r: Traced<real>)
    requires WellFormed(g) && root < |g| && StoredOk(g, DataKey, root, r)
    requires ChildrenSeen(g, DataKey, root, [], r) && EdgesComplete(g, DataKey, root, r)
    ensures forall x :: x in r.nodes ==> r.nodes[x] < |g| && r.nodes[x] in Reach(g, root) && g[r.nodes[x]].data == x
    ensures forall x, c :: x in r.nodes && c in g[r.nodes[x]].prev ==> c < |g| && g[c].data in r.nodes && (g[c].data, x) in r.edges
  {
    forall x | x in r.nodes
      ensures r.nodes[x] < |g| && r.nodes[x] in Reach(g, root) && g[r.nodes[x]].data == x
    {
      assert KeyOf(g, DataKey, r.nodes[x]) == x;
    }
    forall x, c | x in r.nodes && c in g[r.nodes[x]].prev
      ensures c < |g| && g[c].data in r.nodes && (g[c].data, x) in r.edges
    {
      assert c < |g| && KeyOf(g, DataKey, c) == g[c].data;
    }
  }

  lemma DataEdges(g: Arena, root: nat, r: Traced<real>)
    requires WellFormed(g) && root < |g| && StoredOk(g, DataKey, root, r) && EdgesSound(g, DataKey, root, r)
    ensures forall e :: e in r.edges ==>
            && e.1 in r.nodes && r.edges[e].1 == r.nodes[e.1] && r.edges[e].1 < |g|
            && r.edges[e].0 in g[r.edges[e].1].prev && r.edges[e].0 < |g| && g[r.edges[e].0].data == e.0
  {
    forall e | e in r.edges
      ensures && e.1 in r.nodes && r.edges[e].1 == r.nodes[e.1] && r.edges[e].1 < |g|
              && r.edges[e].0 in g[r.edges[e].1].prev && r.edges[e].0 < |g| && g[r.edges[e].0].data == e.0
    {
      var c := r.edges[e].0;
      assert c < |g| && KeyOf(g, DataKey, c) == e.0;
    }
  }

  /** The walk keyed by arena index, which `trace` evidently intends: its node set is
      exactly the set of nodes reachable from `root`, and its edge set exactly the
      (child, parent) links among them. */
  function TraceById(g: Arena, root: nat): (r: Traced<nat>)
    requires WellFormed(g) && root < |g|
    ensures r.nodes.Keys == Reach(g, root)
    ensures forall j :: j in r.nodes ==> r.nodes[j] == j
    ensures forall c, v :: (c, v) in r.edges <==> v in Reach(g, root) && c in g[v].prev
    ensures forall e :: e in r.edges ==> r.edges[e] == e
  {
    IdNodes(g, root);
    IdEdges(g, root);
    Walk(g, IdKey, root)
  }

  lemma IdNodes(g: Arena, root: nat)
    requires WellFormed(g) && root < |g|
    ensures var r := Walk(g, IdKey, root);
      && r.nodes.Keys == Reach(g, root)
      && forall j :: j in r.nodes ==> r.nodes[j] == j
  {
    var r := Walk(g, IdKey, root);
    WalkFacts(g, IdKey, root);
    WalkComplete(g, IdKey, root);
    forall j | j in r.nodes ensures r.nodes[j] == j && j in Reach(g, root) {
      assert KeyOf(g, IdKey, r.nodes[j]) == j;
    }
    forall j | j in Reach(g, root) ensures j in r.nodes {
      assert KeyOf(g, IdKey, j) == j;
    }
  }

  lemma IdEdges(g: Arena, root: nat)
    requires WellFormed(g) && root < |g|
    ensures var r := Walk(g, IdKey, root);
      && (forall c, v :: (c, v) in r.edges <==> v in Reach(g, root) && c in g[v].prev)
      && (forall e :: e in r.edges ==> r.edges[e] == e)
  {
    var r := Walk(g, IdKey, root);
    WalkFacts(g, IdKey, root);
    WalkComplete(g, IdKey, root);
    forall e | e in r.edges ensures r.edges[e] == e && e.1 in Reach(g, root) && e.0 in g[e.1].prev {
      assert KeyOf(g, IdKey, r.edges[e].0) == e.0;
      assert KeyOf(g, IdKey, r.nodes[e.1]) == e.1;
    }
    forall c, v | v in Reach(g, root) && c in g[v].prev ensures (c, v) in r.edges {
      assert v < |g| && NodeOk(g, v);
      assert KeyOf(g, IdKey, c) == c && KeyOf(g, IdKey, v) == v;
    }
  }

  /** When no two reachable nodes share `data`, `trace` does find every reachable node and
      every link among them. */
  lemma TraceCompleteWhenDataDistinct(g: Arena, root: nat)
    requires WellFormed(g) && root < |g|
    requires forall i, j :: i in Reach(g, root) && j in Reach(g, root) && g[i].data == g[j].data ==> i == j
    ensures var r := Walk(g, DataKey, root);
      && r.nodes.Keys == (set j | j in Reach(g, root) :: g[j].data)
      && forall j :: j in Reach(g, root) ==> r.nodes[g[j].data] == j
  {
    var r := Walk(g, DataKey, root);
    WalkFacts(g, DataKey, root);
    WalkComplete(g, DataKey, root);
    forall x | x in r.nodes ensures x in (set j | j in Reach(g, root) :: g[j].data) {
      assert g[r.nodes[x]].data == x;
    }
    forall j | j in Reach(g, root) ensures g[j].data in r.nodes && r.nodes[g[j].data] == j {
      assert KeyOf(g, DataKey, j) == g[j].data;
    }
  }
  /** z = 1, y = 4, v = z + y, k = 2, u = k * v, w = 5, root = w + u. The leaf `w` and the
      sum `v` share the data 5, so `trace` stores `w` under 5 and later drops `v` and
      everything only `v` leads to. */
  function ShadowArena(): (g: Arena)
    ensures IsShadow(g) && WellFormed(g)
  {
    var g := [ Value(1.0, Leaf, 0.0, []), Value(4.0, Leaf, 0.0, []), Value(5.0, Plus, 0.0, [0, 1])
             , Value(2.0, Leaf, 0.0, []), Value(10.0, Times, 0.0, [3, 2]), Value(5.0, Leaf, 0.0, [])
             , Value(15.0, Plus, 0.0, [5, 4]) ];
    assert IsShadow(g);
    assert WellFormed(g) by { ShadowWellFormed(g); }
    g
  }

  /** The arena above is what `Value::new`, `Add::add` and `Mul::mul` build: z and y, then
      v = z + y, then k, then u = k * v, then w, then the root w + u. */
  lemma ShadowBuilt()
    ensures var g1 := Build.Add(Build.NewValue(Build.NewValue([], 1.0), 4.0), 0, 1);
      var g2 := Build.Mul(Build.NewValue(g1, 2.0), 3, 2);
      Build.Add(Build.NewValue(g2, 5.0), 5, 4) == ShadowArena()
  {
    var d := ShadowArena();
    var g0 := Build.NewValue(Build.NewValue([], 1.0), 4.0);
    assert g0 == d[..2];
    var g1 := Build.Add(g0, 0, 1);
    BuiltLeafStep(g0, 0, 1, g1, d);
    var g2 := Build.NewValue(g1, 2.0);
    BuiltNewStep(g1, 2.0, d);
    var g3 := Build.Mul(g2, 3, 2);
    BuiltLeafStep(g2, 3, 2, g3, d);
    var g4 := Build.NewValue(g3, 5.0);
    BuiltNewStep(g3, 5.0, d);
    var g5 := Build.Add(g4, 5, 4);
    BuiltLeafStep(g4, 5, 4, g5, d);
    assert g5 == d[..7];
  }

  /** A `Value::new` step: the new leaf is the next node of `d`. */
  lemma BuiltNewStep(g: Arena, x: real, d: Arena)
    requires WellFormed(g) && |g| < |d| && g == d[..|g|] && d[|g|] == Value(x, Leaf, 0.0, [])
    ensures Build.NewValue(g, x) == d[..|g| + 1]
  {
    SnocEqual(Build.NewValue(g, x), d[..|g| + 1], |g|);
  }

  /** A binary step over a leaf left operand with different data: the result, linking
      exactly the two operands, is the next node of `d`. */
  lemma BuiltLeafStep(g: Arena, a: nat, b: nat, r: Arena, d: Arena)
    requires WellFormed(g) && a < |g| && b < |g| && |g| < |d| && g == d[..|g|]
    requires g[a].prev == [] && g[a].data != g[b].data
    requires |r| == |g| + 1 && r[..|g|] == g && r[|g|].prev == Build.Link(g, a, b)
    requires r[|g|].data == d[|g|].data && r[|g|].op == d[|g|].op && r[|g|].grad == d[|g|].grad
    requires d[|g|].prev == [a, b]
    ensures r == d[..|g| + 1]
  {
    Build.LinkOfLeaf(g, a, b);
    assert r[|g|] == d[|g|];
    SnocEqual(r, d[..|g| + 1], |g|);
  }

  /** The links and data of the arena above. */
  predicate IsShadow(h: Arena) {
    && |h| == 7
    && h[0].data == 1.0 && h[1].data == 4.0 && h[2].data == 5.0 && h[3].data == 2.0
    && h[4].data == 10.0 && h[5].data == 5.0 && h[6].data == 15.0
    && h[0].prev == [] && h[1].prev == [] && h[2].prev == [0, 1] && h[3].prev == []
    && h[4].prev == [3, 2] && h[5].prev == [] && h[6].prev == [5, 4]
  }

  lemma ShadowWellFormed(h: Arena)
    requires IsShadow(h)
    ensures WellFormed(h)
  {
    assert NodeOk(h, 0) && NodeOk(h, 1) && NodeOk(h, 2) && NodeOk(h, 3);
    assert NodeOk(h, 4) && NodeOk(h, 5) && NodeOk(h, 6);
  }

  /** The input that shows the `trace` finding: node 0 (data 1) is reachable from the root,
      but `trace` keyed by `data` never stores the key 1, while the walk keyed by index
      stores node 0. */
  lemma TraceMissesShadowedNode()
    ensures var g := ShadowArena();
      && 0 in Reach(g, 6)
      && g[0].data !in Walk(g, DataKey, 6).nodes
      && Walk(g, DataKey, 6).nodes.Keys == {15.0, 5.0, 10.0, 2.0}
      && 0 in TraceById(g, 6).nodes
  {
    ShadowReach();
    ShadowWalk();
  }

  lemma ShadowReach()
    ensures 0 in Reach(ShadowArena(), 6)
  {
    var g := ShadowArena();
    ReachStep(g, 6, 0);
    ReachStep(g, 4, 0);
    ReachStep(g, 2, 0);
    assert 0 in Reach(g, 2);
    assert 0 in Reach(g, 4);
  }

  lemma ShadowWalk()
    ensures Walk(ShadowArena(), DataKey, 6).nodes.Keys == {15.0, 5.0, 10.0, 2.0}
  {
    var g := ShadowArena();
    var t2 := ShadowFirstHalf(g);
    ShadowSecondHalf(g, t2);
  }

  /** The walk stores the root 15, then the leaf 5, and queues the product. */
  lemma ShadowFirstHalf(h: Arena) returns (t2: Traced<real>)
    requires IsShadow(h) && WellFormed(h)
    ensures t2.nodes.Keys == {15.0, 5.0} && t2.nodes.Keys <= AllKeys(h, DataKey)
    ensures Walk(h, DataKey, 6) == WalkFrom(h, DataKey, [4], t2)
  {
    var t0: Traced<real> := Traced(map[], map[]);
    var (q1, t1) := Visit(h, DataKey, [6], t0);
    assert Walk(h, DataKey, 6) == WalkFrom(h, DataKey, q1, t1);
    assert q1 == [5, 4];
    var (q2, t2') := Visit(h, DataKey, q1, t1);
    assert WalkFrom(h, DataKey, q1, t1) == WalkFrom(h, DataKey, q2, t2');
    assert q2 == [4];
    t2 := t2';
    assert KeyOf(h, DataKey, 6) == 15.0 && KeyOf(h, DataKey, 5) == 5.0;
  }

  /** Then the product 10 and the leaf 2; the sum 5 is skipped, its key being taken. */
  lemma ShadowSecondHalf(h: Arena, t2: Traced<real>)
    requires IsShadow(h) && WellFormed(h)
    requires t2.nodes.Keys == {15.0, 5.0} && t2.nodes.Keys <= AllKeys(h, DataKey)
    ensures WalkFrom(h, DataKey, [4], t2).nodes.Keys == {15.0, 5.0, 10.0, 2.0}
  {
    var (q3, t3) := Visit(h, DataKey, [4], t2);
    assert WalkFrom(h, DataKey, [4], t2) == WalkFrom(h, DataKey, q3, t3);
    assert q3 == [3, 2];
    var (q4, t4) := Visit(h, DataKey, q3, t3);
    assert WalkFrom(h, DataKey, q3, t3) == WalkFrom(h, DataKey, q4, t4);
    assert q4 == [2];
    assert t4.nodes.Keys == {15.0, 5.0, 10.0, 2.0};
    assert WalkFrom(h, DataKey, q4, t4) == WalkFrom(h, DataKey, [], t4);
  }
}

=== FILE: values.dfy ===
/** The `Value` node of the autodiff graph, held in an index-based arena.

    A node's `_prev` is a `HashSet<Rc<Value>>` whose equality and hash look at `data`
    only; in the arena it is a sequence of indices of earlier nodes whose `data` are
    pairwise distinct, in insertion order. */
module Values {

  /** The operation tag `_op`. */
  datatype Op = Leaf | Plus | Minus | Times | Tanh {
    /** The character stored in `_op`. */
    function Symbol(): char {
      match this
      case Leaf => ' '
      case Plus => '+'
      case Minus => '-'
      case Times => '*'
      case Tanh => 'T'
    }
  }

  /** One node: forward value, gradient, operation and operand links. */
  datatype Value = Value(data: real, op: Op, grad: real, prev: seq<nat>)

  /** All nodes built so far; a node refers to its operands by index. */
  type Arena = seq<Value>

  /** `PartialEq::eq` and `Hash::hash` both look at `data` and nothing else. */
  predicate SameKey(a: Value, b: Value) {
    a.data == b.data
  }

  /** Every index in `s` names a node of `g`. */
  predicate InArena(g: Arena, s: seq<nat>) {
    Below(s, |g|)
  }

  /** Every index in `s` is below `n`. */
  predicate Below(s: seq<nat>, n: nat) {
    forall k :: 0 <= k < |s| ==> s[k] < n
  }

  /** The hash keys of the entries of a `_prev` set. */
  function Keys(g: Arena, s: seq<nat>): set<real>
    requires InArena(g, s)
  {
    set j | j in s :: g[j].data
  }

  /** No two entries share a hash key: what a `HashSet` keyed by `data` can hold. */
  predicate DistinctKeys(g: Arena, s: seq<nat>)
    requires InArena(g, s)
  {
    forall p, q :: 0 <= p < q < |s| ==> !SameKey(g[s[p]], g[s[q]])
  }

  /** `HashSet::insert`: adds node `i` unless an entry with the same key is present,
      in which case the existing entry is kept. */
  function Insert(g: Arena, s: seq<nat>, i: nat): (r: seq<nat>)
    requires InArena(g, s) && i < |g|
    ensures InArena(g, r)
    ensures Keys(g, r) == Keys(g, s) + {g[i].data}
    ensures DistinctKeys(g, s) ==> DistinctKeys(g, r)
    ensures s <= r && |r| <= |s| + 1
    ensures g[i].data !in Keys(g, s) ==> r == s + [i]
    ensures g[i].data in Keys(g, s) ==> r == s
  {
    if exists j :: j in s && SameKey(g[j], g[i]) then s else s + [i]
  }

  /** With distinct keys, the number of entries is the number of keys. */
  lemma {:induction false} DistinctKeysCount(g: Arena, s: seq<nat>)
    requires InArena(g, s) && DistinctKeys(g, s)
    ensures |Keys(g, s)| == |s|
    decreases |s|
  {
    if s != [] {
      var t := s[..|s| - 1];
      assert InArena(g, t) && DistinctKeys(g, t);
      DistinctKeysCount(g, t);
      LastKeyNew(g, s);
    }
  }

  /** The last entry's key is not among the keys before it, and adds one key. */
  lemma LastKeyNew(g: Arena, s: seq<nat>)
    requires InArena(g, s) && DistinctKeys(g, s) && s != []
    ensures var t := s[..|s| - 1];
      && InArena(g, t)
      && g[s[|s| - 1]].data !in Keys(g, t)
      && Keys(g, s) == Keys(g, t) + {g[s[|s| - 1]].data}
  {
    var t := s[..|s| - 1];
    var last := s[|s| - 1];
    assert s == t + [last];
    forall j | j in t ensures g[j].data != g[last].data {
      var p :| 0 <= p < |t| && t[p] == j;
      assert !SameKey(g[s[p]], g[s[|s| - 1]]);
    }
  }

  /** The arena invariant: operands were built before the node that uses them, and each
      `_prev` holds distinct keys. It makes the graph acyclic. */
  predicate NodeOk(g: Arena, i: nat)
    requires i < |g|
  {
    && Below(g[i].prev, i)
    && DistinctKeys(g, g[i].prev)
  }

  predicate WellFormed(g: Arena) {
    forall i :: 0 <= i < |g| ==> NodeOk(g, i)
  }

  /** Two arenas that differ at most in gradients. */
  predicate SameShape(g: Arena, h: Arena) {
    && |g| == |h|
    && forall j :: 0 <= j < |g| ==> g[j].data == h[j].data && g[j].op == h[j].op && g[j].prev == h[j].prev
  }

  lemma SameShapeWellFormed(g: Arena, h: Arena)
    requires WellFormed(g) && SameShape(g, h)
    ensures WellFormed(h)
  {
    forall i | 0 <= i < |h| ensures NodeOk(h, i) {
      assert NodeOk(g, i);
      assert h[i].prev == g[i].prev;
      forall p, q | 0 <= p < q < |h[i].prev| ensures !SameKey(h[h[i].prev[p]], h[h[i].prev[q]]) {
        assert !SameKey(g[g[i].prev[p]], g[g[i].prev[q]]);
      }
    }
  }

  /** Every node reachable from `i` through `_prev` links, `i` included: the reference
      definition that `trace` and `_backward` are measured against. */
  function Reach(g: Arena, i: nat): (r: set<nat>)
    requires WellFormed(g) && i < |g|
    ensures i in r
    ensures forall j :: j in r ==> j <= i
    decreases i + 1, 0
  {
    assert NodeOk(g, i);
    {i} + ReachAll(g, g[i].prev, i)
  }

  /** The nodes reachable from any of `cs`, all of which are below `bound`. */
  function ReachAll(g: Arena, cs: seq<nat>, bound: nat): (r: set<nat>)
    requires WellFormed(g) && bound <= |g|
    requires Below(cs, bound)
    ensures forall j :: j in r ==> j < bound
    decreases bound, |cs|
  {
    if cs == [] then {} else Reach(g, cs[0]) + ReachAll(g, cs[1..], bound)
  }

  /** Membership in `ReachAll` is membership in the reach of one of the starting nodes. */
  lemma {:induction false} ReachAllMember(g: Arena, cs: seq<nat>, bound: nat, j: nat)
    requires WellFormed(g) && bound <= |g|
    requires Below(cs, bound)
    ensures j in ReachAll(g, cs, bound) <==> exists c :: c in cs && c < |g| && j in Reach(g, c)
    decreases |cs|
  {
    if cs != [] {
      ReachAllMember(g, cs[1..], bound, j);
      assert forall c :: c in cs <==> c == cs[0] || c in cs[1..];
      assert cs[0] in cs && cs[0] < |g|;
    }
  }

  /** One step down: `j` is reachable from `i` exactly when it is `i` or reachable from
      one of `i`'s operands. */
  lemma ReachStep(g: Arena, i: nat, j: nat)
    requires WellFormed(g) && i < |g|
    ensures j in Reach(g, i) <==> j == i || exists c :: c in g[i].prev && c < |g| && j in Reach(g, c)
  {
    assert NodeOk(g, i);
    ReachAllMember(g, g[i].prev, i, j);
  }

  /** Reachability is transitive. */
  lemma {:induction false} ReachTransitive(g: Arena, i: nat, j: nat)
    requires WellFormed(g) && i < |g| && j in Reach(g, i)
    ensures Reach(g, j) <= Reach(g, i)
    decreases i
  {
    if j != i {
      ReachStep(g, i, j);
      var c :| c in g[i].prev && c < |g| && j in Reach(g, c);
      assert NodeOk(g, i);
      ReachTransitive(g, c, j);
      forall k | k in Reach(g, c) ensures k in Reach(g, i) {
        ReachStep(g, i, k);
      }
    }
  }

  /** Reach is the least set that contains `i` and is closed under `_prev` links. */
  lemma {:induction false} ReachLeast(g: Arena, i: nat, s: set<nat>)
    requires WellFormed(g) && i < |g| && i in s
    requires forall j, c :: j in s && j < |g| && c in g[j].prev ==> c in s
    ensures Reach(g, i) <= s
    decreases i
  {
    forall k | k in Reach(g, i) ensures k in s {
      ReachStep(g, i, k);
      if k != i {
        var c :| c in g[i].prev && c < |g| && k in Reach(g, c);
        assert NodeOk(g, i);
        ReachLeast(g, c, s);
      }
    }
  }

  /** Reach is closed under `_prev` links. */
  lemma ReachClosed(g: Arena, i: nat, j: nat, c: nat)
    requires WellFormed(g) && i < |g| && j in Reach(g, i) && c in g[j].prev
    ensures c in Reach(g, i)
  {
    ReachTransitive(g, i, j);
    assert j < |g|;
    ReachStep(g, j, c);
    assert NodeOk(g, j);
    assert c in Reach(g, c);
  }

  /** Reach reads only the `_prev` links, so changing gradients does not change it. */
  lemma {:induction false} ReachSameShape(g: Arena, h: Arena, i: nat)
    requires WellFormed(g) && SameShape(g, h) && i < |g|
    ensures WellFormed(h) && Reach(g, i) == Reach(h, i)
    decreases i
  {
    SameShapeWellFormed(g, h);
    forall k ensures k in Reach(g, i) <==> k in Reach(h, i) {
      ReachStep(g, i, k);
      ReachStep(h, i, k);
      assert NodeOk(g, i);
      forall c | c in g[i].prev ensures Reach(g, c) == Reach(h, c) {
        ReachSameShape(g, h, c);
      }
    }
  }
  /** The same for the nodes reachable from a list of starting nodes. */
  lemma {:induction false} ReachAllSameShape(g: Arena, h: Arena, cs: seq<nat>, bound: nat)
    requires WellFormed(g) && SameShape(g, h) && bound <= |g| && Below(cs, bound)
    ensures WellFormed(h) && ReachAll(g, cs, bound) == ReachAll(h, cs, bound)
    decreases |cs|
  {
    SameShapeWellFormed(g, h);
    if cs != [] {
      ReachSameShape(g, h, cs[0]);
      ReachAllSameShape(g, h, cs[1..], bound);
    }
  }

  /** A node made by `Value::new`. */
  predicate IsLeaf(v: Value) {
    v.op == Leaf && v.prev == []
  }

  /** Two sequences that agree before position `n` and at `n`, and end there, are equal. */
  lemma SnocEqual<T>(r: seq<T>, d: seq<T>, n: nat)
    requires |r| == |d| == n + 1 && r[..n] == d[..n] && r[n] == d[n]
    ensures r == d
  {
    assert forall k :: 0 <= k < n ==> r[k] == r[..n][k] && d[k] == d[..n][k];
  }
}
